=== FILE: README.md ===
# Harvest Basket, modelled in Dafny

Harvest Basket is a client-side shop for locally grown produce. Customers browse a catalogue of crops, fill a cart, save carts as named baskets and check out with home delivery or collection from a drop-off point. They sign in with an email and a salted, hashed password, and keep an address book with one default address. This project models the business rules behind that:

- **The domain store** (`StoreContext`, class `Store`). It holds the cart, the saved baskets and the admin catalogue of crops, farms and drop-off points. Each operation is a method over sequence fields, specified by a function on the old state. The invariant "cart lines have distinct crop ids" is proved preserved.
- **The auth store** (`AuthContext`, class `AuthStore`). It maps lower-cased emails to accounts (user, hash, salt) and holds the signed-in user.
  - login and register work by case-insensitive lookup.
  - The address book operations rebuild the list and write it back through `updateProfile`. Lemmas count the addresses marked default after each operation.
- **The field validators** (`Validation`). Each validator is written as a method that pushes onto an error list, as in the source. Each is proved equal to a pure error-list function, and lemmas state what the lists mean. The password-strength score is handled the same way.
- **Password hashing** (`Crypto`).
  - Bytes are rendered as lowercase hexadecimal and proved injective.
  - A salt is 16 random bytes rendered as 32 digits.
  - The salted hash is the digest of the password with the salt appended.
  - SHA-256 (FIPS PUB 180-4, section 6.2) over UTF-8 is the parameter `digest`, an arbitrary function onto 32-byte values.
- **The standalone storefront** of `src/App.tsx` (`StandaloneApp`, class `App`). This is a second cart with its own rules:
  - each add is one unit;
  - saving an empty cart is refused;
  - loading takes the basket record itself;
  - completing an order resets cart, delivery and panels.
- **The checkout page** (`CartPage`). It covers the ordered payment guards, saving the cart under a typed name, and payment success and cancel.
- **The catalogue page** (`ShopPage`). It covers the category list, the search-and-category filter, the quantity input's clamp, and adding to the cart.
- **The sign-in dialog** (`AuthModal`). It covers the touched/errors state of its four fields and the submit gate that calls login or register only when the validators of the current mode all pass.

The supporting modules are:

- `Wrappers`: `Option`.
- `Lists`: the `filter`/`map`/`find`/`Set` idioms the code uses, with their lemmas.
- `Text`: ASCII character classes, `toLowerCase`, `trim` and `includes`, and `length` in UTF-16 code units.
- `Types`: the records of `src/types/index.ts`.

Money is integer cents. The `label` field of an address is named `title`, because `label` is a reserved word in Dafny. Every React handler is one atomic step on the state it sets. Random values are parameters of the operations that draw them:

- `saltBytes`, the 16 bytes of `crypto.getRandomValues`;
- `newId`, the value of `crypto.randomUUID()`.

### Behaviour of the code worth knowing (the model follows the code)

- A password of only spaces does not get "Password is required". Only the empty string does (`Validation.PasswordRequiredIffEmpty`). Email, name and phone treat whitespace-only input as missing.
- The strength meter can call a password "Strong" that the validator rejects. `"Abcdefghijk1"` scores 5 while lacking a special character (`Validation.StrongWithoutSpecialCharacter`). The converse does hold: every accepted password is "Strong".
- `addAddress` clears every existing default even when the new address is not default. After it, zero addresses can be default (`AuthContext.AddAddressDefaults`).
- `setDefaultAddress` with an unknown id clears every default. `deleteAddress` of the default never promotes another address. Neither keeps "exactly one default address".
- `categories` would list `"all"` twice if some crop's category were the string `"all"`: the first entry is always `"all"`, followed by the distinct categories.
- The quantity clamp gives 1 when a crop's stock is below 1, which is more than the stock, and it gives 1 for a negative entry (`ShopPage.ClampQuantity`).
- Every length bound (email, password, name and the strength points) tests `length`, which counts UTF-16 code units, so a character outside the Basic Multilingual Plane counts twice. A seven-character password with an emoji has length 8 and is accepted (`Validation.AstralCharacterCountsTwice`).
- The store's `saveBasket` saves an empty cart. The standalone storefront's refuses one.

## Model

| member | source | states |
|---|---|---|
| Lists.Distinct | src/pages/Shop.tsx:11 | `Array.from(new Set(s))`: every element of `s` occurs in the result and every result element occurs in `s`; no element occurs twice; elements come in order of first appearance in `s` |
| Lists.FilterSpec | src/pages/Shop.tsx:13-18 | `s.filter(keep)`: every element kept passes the test and comes from `s`; every element of `s` that passes is kept; the result is a subsequence of `s`, in its order; each passing value occurs as many times as in `s` and every other value not at all |
| Text.ToLower | src/pages/Shop.tsx:14-15 | ASCII lower-casing keeps the length and lower-cases each upper-case letter, leaving other characters alone |
| Text.ToLowerIdempotent | src/context/AuthContext.tsx:86-88 | lower-casing a lower-cased email changes nothing, so the stored key is its own lookup key |
| Text.Trim | src/context/AuthContext.tsx:98-99 | `trim()` never grows a string and leaves no whitespace at either end |
| Text.TrimKeepsMiddle | src/context/AuthContext.tsx:98-99 | `trim()` keeps the middle of the string: `s` is a blank prefix, then `s.trim()` unchanged, then a blank suffix |
| Text.TrimEmptyIffBlank | src/utils/validation.ts:9 | `!s.trim()` holds exactly of strings made only of whitespace, the empty string included |
| Text.ContainsEmpty | src/pages/Shop.tsx:14-15 | every string includes the empty string |
| Text.Utf16Length | src/utils/validation.ts:19 | `length` is at least the number of characters and at most twice it, and is 0 exactly for the empty string |
| Text.Utf16LengthInBmp | src/utils/validation.ts:37 | for text within the Basic Multilingual Plane, `length` is the number of characters |
| Text.Utf16LengthAppend | src/utils/validation.ts:37 | the length of a concatenation is the sum of the lengths |
| Validation.ValidateEmail | src/utils/validation.ts:6-27 | the list the validator builds is `EmailErrors(email)`, and `isValid` holds exactly when it is empty |
| Validation.EmailPatternShape | src/utils/validation.ts:14-17 | the email pattern holds exactly when there is no whitespace and exactly one '@' with something before it, and the part after it has a '.' that is neither its first nor its last character |
| Validation.EmailRequiredIffBlank | src/utils/validation.ts:9-12 | blank input gets exactly `["Email is required"]`, and only blank input gets that message |
| Validation.EmailAcceptedIff | src/utils/validation.ts:9-26 | no email errors exactly when the input is not blank, matches the pattern and has a length of at most 254 |
| Validation.ValidatePassword | src/utils/validation.ts:29-65 | the list the validator builds is `PasswordErrors(password)`, and `isValid` holds exactly when it is empty |
| Validation.PasswordErrorsFollowRuleOrder | src/utils/validation.ts:37-59 | for a non-empty password the errors are the messages of the violated rules in the fixed order: too short, no upper case, no lower case, no digit, no special character, too long |
| Validation.PasswordRequiredIffEmpty | src/utils/validation.ts:32-35 | "Password is required" is reported exactly for the empty string; a whitespace-only password gets rule errors instead |
| Validation.PasswordAtMostFiveErrors | src/utils/validation.ts:37-59 | at most five errors, and "too short" and "too long" never both |
| Validation.PasswordAcceptedIff | src/utils/validation.ts:32-64 | no password errors exactly when the length is 8 to 128 and the password has an upper-case letter, a lower-case letter, a digit and a special character |
| Validation.AstralCharacterCountsTwice | src/utils/validation.ts:37-59 | a seven-character password with one character outside the Basic Multilingual Plane has length 8 and gets no errors |
| Validation.ValidateName | src/utils/validation.ts:67-91 | the list the validator builds is `NameErrors(name)`, and `isValid` holds exactly when it is empty |
| Validation.NameRequiredIffBlank | src/utils/validation.ts:70-73 | blank input gets exactly `["Name is required"]`, and only blank input gets that message |
| Validation.NameAcceptedIff | src/utils/validation.ts:70-90 | no name errors exactly when the trimmed name has a length of at least 2, the untrimmed name one of at most 100, and every character is a letter, whitespace, `'` or `-` |
| Validation.DigitsOnly | src/utils/validation.ts:106 | `replace(/\D/g, '')` keeps only digits, never grows the string, and gives nothing for blank input |
| Validation.ValidatePhone | src/utils/validation.ts:93-115 | the list the validator builds is `PhoneErrors(phone)`, and `isValid` holds exactly when it is empty |
| Validation.PhoneRequiredIffBlank | src/utils/validation.ts:96-99 | blank input gets exactly `["Phone number is required"]`, and only blank input gets that message |
| Validation.PhoneAcceptedIff | src/utils/validation.ts:96-114 | no phone errors exactly when the input is not blank, every character is a digit, whitespace or one of `-+()`, and it has 10 to 15 digits |
| Validation.PasswordStrength | src/utils/validation.ts:117-130 | the score is at most 6; the label is Weak for scores up to 2, Medium for 3 to 4 and Strong for 5 and 6 |
| Validation.GetPasswordStrength | src/utils/validation.ts:117-130 | the counter loop yields `PasswordStrength(password)`: one point per criterion met, with its label |
| Validation.AcceptedPasswordIsStrong | src/utils/validation.ts:37-59 | every password the validator accepts scores at least 5 and is rated Strong |
| Validation.StrongWithoutSpecialCharacter | src/utils/validation.ts:117-130 | "Abcdefghijk1" is rejected for lacking a special character yet rated Strong |
| Crypto.PaddedRadix16IsByteToHex | src/utils/crypto.ts:8 | `b.toString(16).padStart(2, '0')` is the byte's two hexadecimal digits, high digit first |
| Crypto.ToHex | src/utils/crypto.ts:7-8 | hex encoding gives two lowercase hexadecimal digits per byte |
| Crypto.ToHexAt | src/utils/crypto.ts:8 | the digits of byte `i` sit at positions `2i` and `2i+1` |
| Crypto.FromHexToHex | src/utils/crypto.ts:8 | reading an encoding back gives the original bytes |
| Crypto.ToHexInjective | src/utils/crypto.ts:8 | two byte sequences have the same encoding exactly when they are equal |
| Crypto.FromHexRoundTrip | src/utils/crypto.ts:8 | every even-length lowercase hexadecimal string is the encoding of the bytes it reads as |
| Crypto.GenerateSalt | src/utils/crypto.ts:18-22 | a salt from 16 bytes is 32 lowercase hexadecimal digits that read back as those bytes |
| Crypto.HashPassword | src/utils/crypto.ts:1-11 | the hash is 64 lowercase hexadecimal digits that read back as the password's digest |
| Crypto.VerifyPassword | src/utils/crypto.ts:13-16 | a stored string verifies only if it is 64 hexadecimal digits reading back as the password's digest |
| Crypto.VerifyPasswordIff | src/utils/crypto.ts:13-16 | and every such string verifies |
| Crypto.HashPasswordWithSalt | src/utils/crypto.ts:24-27 | the salted hash is 64 hexadecimal digits reading back as the digest of the password with the salt appended |
| Crypto.SaltedHashesAgreeIff | src/utils/crypto.ts:24-27 | two salted hashes are equal exactly when the digests of the salted passwords are equal |
| StoreContext.CartAdd | src/context/StoreContext.tsx:190-202 | a crop already in the cart keeps the cart's length; a new crop is appended as `{crop, quantity}` after unchanged lines; either way the crop is in the cart afterwards |
| StoreContext.AddToCartMerges | src/context/StoreContext.tsx:192-199 | with distinct crop ids, adding a crop at line `i` adds `quantity` to that line only, keeping its crop record |
| StoreContext.AddToCartKeepsUnique | src/context/StoreContext.tsx:190-202 | adding keeps the cart's crop ids distinct |
| StoreContext.AddToCartTotal | src/context/StoreContext.tsx:190-202 | with distinct crop ids, adding raises the cart's total units by exactly `quantity` |
| StoreContext.CartRemove | src/context/StoreContext.tsx:204-206 | no line of that crop is left; the rest keep their order; every other line stays; an absent id changes nothing |
| StoreContext.RemoveFromCartAt | src/context/StoreContext.tsx:204-206 | with distinct crop ids, removing line `i`'s crop drops exactly that line and its units |
| StoreContext.RemoveFromCartKeepsUnique | src/context/StoreContext.tsx:204-206 | removing keeps the crop ids distinct |
| StoreContext.CartSetQuantity | src/context/StoreContext.tsx:208-218 | a quantity of 0 or less is `removeFromCart`; a positive one sets the matching lines' quantity outright and leaves the length, crops and other lines alone; an unknown id changes nothing |
| StoreContext.SetQuantityAt | src/context/StoreContext.tsx:208-218 | with distinct crop ids, a positive quantity replaces line `i`'s quantity (no increment), changing the total by the difference |
| StoreContext.SetQuantityKeepsUnique | src/context/StoreContext.tsx:208-218 | setting a quantity keeps the crop ids distinct |
| StoreContext.CartAfterLoad | src/context/StoreContext.tsx:234-239 | loading gives the items of the first basket with that id, or the old cart when there is none |
| StoreContext.LoadKeepsUnique | src/context/StoreContext.tsx:234-239 | loading from baskets with distinct crop ids keeps the cart's crop ids distinct |
| StoreContext.DeleteBasketKeepsUnique | src/context/StoreContext.tsx:241-243 | deleting a basket leaves only baskets with distinct crop ids |
| StoreContext.Store.constructor | src/context/StoreContext.tsx:143-168 | a store over a catalogue starts with an empty cart, no baskets, not admin, and valid |
| StoreContext.Store.AddToCart | src/context/StoreContext.tsx:190-202 | the cart becomes `CartAdd` of the old cart; a valid store stays valid and gains exactly `quantity` units |
| StoreContext.Store.RemoveFromCart | src/context/StoreContext.tsx:204-206 | the cart becomes `CartRemove` of the old cart, and validity is kept |
| StoreContext.Store.UpdateCartQuantity | src/context/StoreContext.tsx:208-218 | the cart becomes `CartSetQuantity` of the old cart (removal for quantity 0 or less), and validity is kept |
| StoreContext.Store.ClearCart | src/context/StoreContext.tsx:220-222 | the cart is empty and nothing else changes |
| StoreContext.Store.SaveBasket | src/context/StoreContext.tsx:224-232 | one basket with the fresh id, the name and the current cart is appended, even for an empty cart; the cart is unchanged |
| StoreContext.Store.LoadBasket | src/context/StoreContext.tsx:234-239 | the cart is replaced by the basket's items, discarding the old contents; an unknown id leaves it unchanged |
| StoreContext.Store.DeleteBasket | src/context/StoreContext.tsx:241-243 | only baskets with that id are removed, and validity is kept |
| StoreContext.Store.AddCrop | src/context/StoreContext.tsx:245-247 | the crop is appended under the fresh id |
| StoreContext.Store.UpdateCrop | src/context/StoreContext.tsx:249-251 | crops with that id become the new record; the length and all other crops are unchanged |
| StoreContext.Store.DeleteCrop | src/context/StoreContext.tsx:253-255 | exactly the crops with that id are removed |
| StoreContext.Store.AddFarm | src/context/StoreContext.tsx:257-259 | the farm is appended under the fresh id |
| StoreContext.Store.UpdateFarm | src/context/StoreContext.tsx:261-263 | farms with that id become the new record; the length and all other farms are unchanged |
| StoreContext.Store.DeleteFarm | src/context/StoreContext.tsx:265-267 | exactly the farms with that id are removed, and crops naming the farm are not touched |
| StoreContext.Store.AddDropOffPoint | src/context/StoreContext.tsx:269-271 | the point is appended under the fresh id |
| StoreContext.Store.UpdateDropOffPoint | src/context/StoreContext.tsx:273-275 | points with that id become the new record; the length and all other points are unchanged |
| StoreContext.Store.DeleteDropOffPoint | src/context/StoreContext.tsx:277-279 | exactly the points with that id are removed |
| StoreContext.Store.SetIsAdmin | src/context/StoreContext.tsx:168 | the admin flag takes the given value |
| StoreContext.Store.AssignFarmToCrop | src/context/StoreContext.tsx:281-285 | only `farmId` changes, and only on crops with that id; whether the farm exists is not checked |
| AuthContext.Merge | src/context/AuthContext.tsx:128 | `{ ...user, ...data }`: an empty patch changes nothing, an address-only patch replaces only the addresses, and an absent email is kept |
| AuthContext.NewAccount | src/context/AuthContext.tsx:92-109 | the stored user has a fresh id, the lower-cased email, the trimmed name and phone and no addresses; the hash is 64 hexadecimal digits reading back as the digest of the password with the salt appended |
| AuthContext.NewAccountAcceptsIff | src/context/AuthContext.tsx:65-67 | a new account accepts a login password exactly when its salted digest equals that of the registered password |
| AuthContext.WithNewAddress | src/context/AuthContext.tsx:142-152 | the book grows by one; every old address loses its default flag; the new address is last and is default exactly when it asked to be or the book was empty |
| AuthContext.ReplaceAddress | src/context/AuthContext.tsx:158-168 | the length is kept; addresses with the id become the new record; if it is default every other address loses its flag, even when no id matches; otherwise the others are unchanged |
| AuthContext.RemoveAddress | src/context/AuthContext.tsx:173-174 | no address with that id is left, every address with another id is kept, and they keep their order |
| AuthContext.MarkDefault | src/context/AuthContext.tsx:180-185 | the length and every field but the flag are kept; the flag holds exactly for addresses with that id (for an unknown id, for none) |
| AuthContext.AddAddressDefaults | src/context/AuthContext.tsx:147-152 | after adding, exactly one address is default when the new one asked to be or the book was empty, and none otherwise |
| AuthContext.SetDefaultAddressDefaults | src/context/AuthContext.tsx:177-186 | with distinct ids, exactly one address is default for a known id and none for an unknown id |
| AuthContext.UpdateAddressDefaults | src/context/AuthContext.tsx:155-169 | with distinct ids, a default update leaves exactly one default for a known id and none for an unknown id; a non-default update never adds a default |
| AuthContext.DeleteDefaultAddressLeavesNone | src/context/AuthContext.tsx:171-175 | deleting the only default address leaves no default; nothing is promoted |
| AuthContext.AuthStore.constructor | src/context/AuthContext.tsx:30-42 | no accounts, nobody signed in, and consistent |
| AuthContext.AuthStore.IsAuthenticated | src/context/AuthContext.tsx:192 | `!!user`: signed in exactly when there is a current user, and then, in a consistent store, that user is the user of the account under its email |
| AuthContext.AuthStore.Login | src/context/AuthContext.tsx:57-77 | success exactly when an account is stored under the lower-cased email and the salted password matches its hash; on success the stored user signs in; otherwise the same "Invalid email or password" for an unknown email and a wrong password, with the current user unchanged; the accounts never change |
| AuthContext.AuthStore.Register | src/context/AuthContext.tsx:79-119 | a lower-cased email already stored fails with the "already exists" message and changes nothing; otherwise exactly one account, `NewAccount`, is stored under it and its user signs in; consistency is kept |
| AuthContext.AuthStore.Logout | src/context/AuthContext.tsx:121-123 | nobody is signed in and the accounts are untouched |
| AuthContext.AuthStore.UpdateProfile | src/context/AuthContext.tsx:125-137 | nothing when signed out; otherwise the merged record becomes the current user and replaces the user of the account under the old email, if there is one |
| AuthContext.AuthStore.AddAddress | src/context/AuthContext.tsx:139-153 | nothing when signed out; otherwise the user's book becomes `WithNewAddress` with the fresh id; the account under the user's email has only its user replaced (its hash and salt and every other account stay), and an absent entry leaves the accounts as they were; consistency is kept |
| AuthContext.AuthStore.UpdateAddress | src/context/AuthContext.tsx:155-169 | nothing when signed out; otherwise the book becomes `ReplaceAddress`; the account under the user's email has only its user replaced (its hash and salt and every other account stay), and an absent entry leaves the accounts as they were; consistency is kept |
| AuthContext.AuthStore.DeleteAddress | src/context/AuthContext.tsx:171-175 | nothing when signed out; otherwise the book becomes `RemoveAddress`; the account under the user's email has only its user replaced (its hash and salt and every other account stay), and an absent entry leaves the accounts as they were; consistency is kept |
| AuthContext.AuthStore.SetDefaultAddress | src/context/AuthContext.tsx:177-186 | nothing when signed out; otherwise the book becomes `MarkDefault`; the account under the user's email has only its user replaced (its hash and salt and every other account stay), and an absent entry leaves the accounts as they were; consistency is kept |
| StandaloneApp.CartAdd | src/App.tsx:30-44 | a product already in the cart keeps the cart's length; a new product is appended as `{product, quantity: 1}` |
| StandaloneApp.CartItemCount | src/App.tsx:106 | an empty cart counts 0 items; with every quantity at least 1 the count is at least the number of lines |
| StandaloneApp.AddIncrementsByOne | src/App.tsx:32-39 | with distinct product ids, adding a product at line `i` raises that line by exactly one and changes nothing else |
| StandaloneApp.AddCountsOneMore | src/App.tsx:30-44 | with distinct product ids, every add raises `cartItemCount` by exactly one and keeps the ids distinct |
| StandaloneApp.CartRemove | src/App.tsx:46-49 | no line of that product is left; every line of another product is kept, in order; an absent id changes nothing |
| StandaloneApp.RemoveAt | src/App.tsx:46-47 | with distinct product ids, removing line `i`'s product drops exactly that line and its units |
| StandaloneApp.CartSetQuantity | src/App.tsx:51-61 | 0 or less removes the product; a positive quantity sets the matching lines outright, keeping the length and the other lines |
| StandaloneApp.SetQuantityAt | src/App.tsx:56-60 | with distinct product ids, a positive quantity replaces line `i`'s quantity, changing the count by the difference |
| StandaloneApp.DeleteBasketKeepsUnique | src/App.tsx:84-87 | deleting a basket leaves only baskets whose lines have distinct products |
| StandaloneApp.EditsKeepUnique | src/App.tsx:46-61 | removing and setting quantities keep the product ids distinct |
| StandaloneApp.App.constructor | src/App.tsx:5-10 | empty cart and baskets, no delivery method, both panels closed |
| StandaloneApp.App.AddToCart | src/App.tsx:30-44 | the cart becomes `CartAdd` of the old cart; a valid cart stays valid and counts exactly one more item |
| StandaloneApp.App.RemoveFromCart | src/App.tsx:46-49 | the cart becomes `CartRemove` of the old cart, and validity is kept |
| StandaloneApp.App.UpdateQuantity | src/App.tsx:51-61 | the cart becomes `CartSetQuantity` of the old cart, and validity is kept |
| StandaloneApp.App.SaveBasket | src/App.tsx:63-76 | an empty cart adds no basket; otherwise one basket with the fresh id, the name and the cart's items is appended; the cart is unchanged; distinct products in the cart and in every basket stay so |
| StandaloneApp.App.LoadBasket | src/App.tsx:78-82 | the cart becomes the basket's items, whatever it held, and the cart panel opens; loading one of the saved baskets keeps the products of the cart distinct |
| StandaloneApp.App.DeleteBasket | src/App.tsx:84-87 | exactly the baskets with that id are removed; the remaining baskets keep distinct products |
| StandaloneApp.App.HandleCheckout | src/App.tsx:89-95 | checkout opens only when the cart is non-empty |
| StandaloneApp.App.CompleteOrder | src/App.tsx:97-106 | the cart is empty, so it counts no items; the delivery method is back to none and both panels are closed; the invariant is kept |
| CartPage.CheckoutGate | src/pages/Cart.tsx:36-56 | payment may open exactly when the cart is non-empty, the user is signed in, and the chosen method's selection is made; an empty cart stops first, then a signed-out user, then a missing address or drop-off point |
| CartPage.UnusedSelectionIgnored | src/pages/Cart.tsx:45-53 | the selection for the delivery method not chosen never affects the outcome |
| CartPage.Cart.constructor | src/pages/Cart.tsx:16-21 | home delivery, nothing selected, empty basket name, no form and no payment step |
| CartPage.Cart.HandleProceedToPayment | src/pages/Cart.tsx:36-56 | the returned guard is `CheckoutGate` of the current state, and the payment step opens only when it is `Proceed` |
| CartPage.Cart.HandleSaveBasket | src/pages/Cart.tsx:25-34 | a blank name saves nothing and keeps the form; otherwise the cart is saved under the name as typed, the name is cleared and the form hidden; the store stays valid |
| CartPage.Cart.HandlePaymentSuccess | src/pages/Cart.tsx:58-62 | the store's cart is emptied |
| CartPage.Cart.CancelPayment | src/pages/Cart.tsx:114 | the payment step closes and the cart is not touched |
| ShopPage.Categories | src/pages/Shop.tsx:11 | "all" comes first, followed by every crop category exactly once and nothing else |
| ShopPage.CategoriesInFirstAppearanceOrder | src/pages/Shop.tsx:11 | the categories after "all" come in the order in which the crops first show them |
| ShopPage.FilteredCrops | src/pages/Shop.tsx:13-18 | a crop is kept exactly when its name or description contains the search term case-insensitively and the category is "all" or its own; the result is an order-preserving subsequence of the catalogue, and a kept crop occurs as many times as in the catalogue |
| ShopPage.EmptySearchFiltersByCategoryOnly | src/pages/Shop.tsx:13-18 | with an empty search every crop of the selected category is shown, and "all" shows the whole catalogue |
| ShopPage.ClampQuantity | src/pages/Shop.tsx:101 | the stored quantity is at least 1, and at most the stock when the stock is at least 1; an in-range entry is kept, a larger one becomes the stock, and an unparsable entry, 0, a negative entry or a stock below 1 gives 1 |
| ShopPage.QuantityFor | src/pages/Shop.tsx:22 | the stored value when it is set and non-zero, otherwise 1 |
| ShopPage.AddedQuantityPositive | src/pages/Shop.tsx:22 | while every stored quantity is at least 1, the quantity added is at least 1 |
| ShopPage.Shop.constructor | src/pages/Shop.tsx:7-9 | empty search, category "all", no stored quantities |
| ShopPage.Shop.SetQuantityInput | src/pages/Shop.tsx:99-102 | the crop's stored quantity becomes the clamped input, and all stored quantities stay at least 1 |
| ShopPage.Shop.HandleAddToCart | src/pages/Shop.tsx:20-27 | an unknown crop id changes nothing; otherwise the first crop with that id is added with its stored quantity (1 when unset or 0), its input goes back to 1, and the cart's total units strictly grow |
| AuthModal.Fields.Set | src/components/AuthModal.tsx:76 | `{ ...prev, [f]: v }` sets field `f` and leaves the other three alone |
| AuthModal.FieldNamed | src/components/AuthModal.tsx:59-74 | exactly "email", "password", "name" and "phone" name a field |
| AuthModal.ErrorsAfter | src/components/AuthModal.tsx:57-77 | an unknown field leaves the errors as they were; a known field's entry becomes its validator's errors and the others are kept |
| AuthModal.FormAcceptedIff | src/components/AuthModal.tsx:115-117 | login passes exactly when email and password are valid; registration also needs a valid name and phone; each stated by the validators' rules |
| AuthModal.RegisterGateIsStricter | src/components/AuthModal.tsx:115-117 | a form that passes for registration passes for login; one that passes only for login fails on the name or the phone |
| AuthModal.StrengthShown | src/components/AuthModal.tsx:154-156 | the strength is shown exactly in register mode with a non-empty password, and is then `getPasswordStrength` of it |
| AuthModal.AcceptedRegistrationShowsStrong | src/components/AuthModal.tsx:154-156 | a registration that passes the gate always shows "Strong" |
| AuthModal.ResultMessage | src/components/AuthModal.tsx:133-141 | the message is of kind success exactly when the store's result succeeded, and its text is the store's message |
| AuthModal.SubmitErrors | src/components/AuthModal.tsx:98-113 | email and password errors always; name and phone errors only when registering, empty when logging in |
| AuthModal.SubmitErrorsEmptyIffAccepted | src/components/AuthModal.tsx:108-117 | the gate passes exactly when every stored error list is empty |
| AuthModal.AuthModal.constructor | src/components/AuthModal.tsx:14-38 | the requested mode, empty values, no errors, nothing touched, no message, not loading, password hidden |
| AuthModal.AuthModal.ResetForm | src/components/AuthModal.tsx:47-53 | empty values, no errors, nothing touched, no message, password hidden |
| AuthModal.AuthModal.Open | src/components/AuthModal.tsx:40-45 | opening sets the requested mode and a fresh form |
| AuthModal.AuthModal.ValidateField | src/components/AuthModal.tsx:57-77 | the errors become `ErrorsAfter`: only the named field's list changes, to its validator's errors |
| AuthModal.AuthModal.HandleBlur | src/components/AuthModal.tsx:79-82 | the field is marked touched and its current value validated; the other fields keep their flags and errors |
| AuthModal.AuthModal.HandleChange | src/components/AuthModal.tsx:84-89 | the value is stored; the field is revalidated only if already touched, otherwise its errors stay |
| AuthModal.AuthModal.SwitchMode | src/components/AuthModal.tsx:149-152 | the mode toggles between login and register, with a fresh form |
| AuthModal.ValidateForm | src/components/AuthModal.tsx:98-117 | the validators run for the mode: the error lists are `SubmitErrors` (name and phone left empty when logging in), and the verdict is `FormAccepted`, true exactly when the mode's validators all pass |
| AuthModal.AuthModal.CheckForm | src/components/AuthModal.tsx:96-117 | all four fields are marked touched, and the stored errors and the verdict are those of `ValidateForm`: `SubmitErrors` and `FormAccepted` for the mode |
| AuthModal.AuthModal.CallAuth | src/components/AuthModal.tsx:125-131 | login or register by mode: login succeeds exactly for a stored account the password matches, signs in that account's user and never changes the accounts; register succeeds exactly for a new email, stores the new account (salted with the drawn salt) under the lower-cased email and signs its user in; a failure changes nothing; the store stays consistent |
| AuthModal.AuthModal.HandleSubmit | src/components/AuthModal.tsx:91-147 | all fields are touched and loading ends; the store is called exactly when the mode's validators all pass; otherwise "Please fix the errors in the form" and the store is unchanged; a call's message has kind success exactly when it succeeded, and a successful call leaves the store signed in as login or register promise |

## Left out

- Persistence: `localStorage` reads and write-backs, JSON (de)serialisation and the effects that run them. The stores' collections are in-memory fields, and a constructor stands for the restored state.
- SHA-256, `TextEncoder`, `crypto.getRandomValues` and `crypto.randomUUID` are foreign calls. They become the `digest` parameter, the `saltBytes` input and the `newId` input. Nothing is assumed about the digest beyond its 32-byte output.
- `Crypto.FromHex`: reads two digits per byte and drops a trailing odd digit. It exists only to state round trips and is not part of the source.
- Asynchrony and timing. The `await` on login and register, the 1.5-second auto-close after a successful submit, and React's batching of state updates are not modelled. Each handler is one atomic sequential step.
- The error paths of the `try`/`catch` blocks in login, register and the dialog's submit. They are reached only when hashing throws, which the digest parameter never does.
- Floating-point prices and the totals `cartTotal` (src/App.tsx:105) and `total` (src/pages/Cart.tsx:23). Prices are integer cents and no total is stated.
- `createdAt` timestamps and date formatting.
- The payment form (src/components/PaymentForm.tsx) is not part of this model. Payment success is modelled from the callback the page passes it.
- The admin pages, the profile page, the header and the saved-baskets page are not part of this model. Their effects on the stores are the store operations modelled here.
- Toasts, `alert` dialogs and navigation are not modelled. `CartPage.Cart.HandleProceedToPayment` returns the guard that decided instead of showing its alert.
- Plain setters are not modelled as operations: the delivery-method and selection inputs of the checkout page, the search box and category select of the catalogue page, and the show-password toggle.
- Regular expressions are explicit ASCII character predicates. `toLowerCase` and `trim` are ASCII-only. Non-ASCII letters and whitespace are treated as other characters.
- Uniqueness of address ids is not enforced by the source. The address-book lemmas take it as a hypothesis, which fresh ids from `randomUUID` give in practice.
- AuthModal.AuthModal.HandleBlur: for a field name other than the four, the source adds a stray `touched` key that nothing reads. The model leaves the state unchanged.
- AuthModal.AuthModal.HandleChange: for a field name other than the four, the source adds a stray `formData` key that nothing reads. The model leaves the state unchanged.
- AuthModal.AuthModal.HandleSubmit: does not restate that the auth store stays consistent. That is stated on `AuthModal.AuthModal.CallAuth`, which it calls; keeping it off the submit contract keeps that proof small.
- AuthContext.AuthStore.UpdateProfile: consistency of the account map is promised only for patches that leave the email alone. A patch changing the email would leave the current user out of step with the account under the old email, as the source does.

=== FILE: app.dfy ===
/**
 * The self-contained storefront of src/App.tsx (lines 5-106): a second cart, separate from
 * the domain store, over its own product records. Its rules differ from the store's: adding
 * always adds one unit, saving an empty cart is refused, a basket is loaded from the record
 * itself, and completing an order resets the cart and the delivery choice.
 */
module StandaloneApp {
  import opened Wrappers
  import opened Types
  import Lists

  /** An entry of `mockProducts`; prices are in cents. */
  datatype Product = Product(
    id: string,
    name: string,
    farm: string,
    category: string,
    price: int,
    unit: string,
    image: string,
    inStock: bool)

  /** `{ product, quantity }`. */
  datatype Line = Line(product: Product, quantity: int)

  /** `{ id, name, items }` of a saved basket. */
  datatype Basket = Basket(id: string, name: string, items: seq<Line>)

  function LineKey(line: Line): string {
    line.product.id
  }

  function LineQuantity(line: Line): int {
    line.quantity
  }

  function BasketId(b: Basket): string {
    b.id
  }

  /** `cartItemCount`: `cart.reduce((sum, item) => sum + item.quantity, 0)`. */
  function CartItemCount(cart: seq<Line>): (n: int)
    ensures cart == [] ==> n == 0
    ensures (forall i :: 0 <= i < |cart| ==> cart[i].quantity >= 1) ==> n >= |cart|
  {
    Lists.SumAtLeastLength(cart, LineQuantity);
    Lists.Sum(cart, LineQuantity)
  }

  /** The step `item => ({ ...item, quantity: item.quantity + 1 })`. */
  function Increment(line: Line): Line {
    line.(quantity := line.quantity + 1)
  }

  /** The step `item => ({ ...item, quantity })`. */
  function WithQuantity(quantity: int): Line -> Line {
    (line: Line) => line.(quantity := quantity)
  }

  /** The cart after `addToCart(product)`: one more unit on that product's line, or a new line of one. */
  function CartAdd(cart: seq<Line>, product: Product): (r: seq<Line>)
    ensures Lists.HasKey(cart, LineKey, product.id) ==> |r| == |cart|
    ensures !Lists.HasKey(cart, LineKey, product.id) ==> r == cart + [Line(product, 1)]
  {
    if Lists.Find(cart, Lists.KeyIs(LineKey, product.id)).Some? then
      Lists.UpdateKey(cart, LineKey, product.id, Increment)
    else
      cart + [Line(product, 1)]
  }

  /** The cart after `removeFromCart(productId)`. */
  function CartRemove(cart: seq<Line>, productId: string): (r: seq<Line>)
    ensures !Lists.HasKey(r, LineKey, productId)
    ensures Lists.IsSubsequence(r, cart)
    ensures forall i :: 0 <= i < |cart| && cart[i].product.id != productId ==> cart[i] in r
    ensures !Lists.HasKey(cart, LineKey, productId) ==> r == cart
  {
    Lists.RemoveKey(cart, LineKey, productId)
  }

  /** The cart after `updateQuantity(productId, quantity)`. */
  function CartSetQuantity(cart: seq<Line>, productId: string, quantity: int): (r: seq<Line>)
    ensures quantity <= 0 ==> r == CartRemove(cart, productId)
    ensures quantity > 0 ==> |r| == |cart|
    ensures quantity > 0 ==> forall i :: 0 <= i < |cart| ==>
      r[i].product == cart[i].product && r[i].quantity == if cart[i].product.id == productId then quantity else cart[i].quantity
  {
    if quantity <= 0 then CartRemove(cart, productId)
    else Lists.UpdateKey(cart, LineKey, productId, WithQuantity(quantity))
  }

  /** Adding a product already in a cart with distinct products raises that line by exactly one unit. */
  lemma AddIncrementsByOne(cart: seq<Line>, product: Product, i: int)
    requires Lists.UniqueKeys(cart, LineKey)
    requires 0 <= i < |cart| && cart[i].product.id == product.id
    ensures CartAdd(cart, product) == cart[i := Line(cart[i].product, cart[i].quantity + 1)]
  {
    assert Lists.HasKey(cart, LineKey, product.id);
    Lists.UpdateKeyAt(cart, LineKey, Increment, i);
  }

  /** In a cart with distinct products, every add counts one more item, and the products stay distinct. */
  lemma AddCountsOneMore(cart: seq<Line>, product: Product)
    requires Lists.UniqueKeys(cart, LineKey)
    ensures CartItemCount(CartAdd(cart, product)) == CartItemCount(cart) + 1
    ensures Lists.UniqueKeys(CartAdd(cart, product), LineKey)
  {
    if Lists.HasKey(cart, LineKey, product.id) {
      var i :| 0 <= i < |cart| && cart[i].product.id == product.id;
      AddIncrementsByOne(cart, product, i);
      Lists.SumUpdate(cart, i, Line(cart[i].product, cart[i].quantity + 1), LineQuantity);
      Lists.UpdateKeyKeepsUniqueKeys(cart, LineKey, product.id, Increment);
    } else {
      var line := [Line(product, 1)];
      Lists.SumAppend(cart, line, LineQuantity);
      assert line[..0] == [];
      var r := cart + line;
      assert r[|cart|].product.id == product.id;
    }
  }

  /** In a cart with distinct products, removing a line's product drops that line and its units only. */
  lemma RemoveAt(cart: seq<Line>, i: int)
    requires Lists.UniqueKeys(cart, LineKey) && 0 <= i < |cart|
    ensures CartRemove(cart, cart[i].product.id) == cart[..i] + cart[i + 1..]
    ensures CartItemCount(CartRemove(cart, cart[i].product.id)) == CartItemCount(cart) - cart[i].quantity
  {
    Lists.RemoveKeyAt(cart, LineKey, i);
    Lists.SumRemove(cart, i, LineQuantity);
  }

  /** Setting a quantity keeps the products distinct; a positive quantity replaces that line's count. */
  lemma SetQuantityAt(cart: seq<Line>, i: int, quantity: int)
    requires Lists.UniqueKeys(cart, LineKey) && 0 <= i < |cart| && quantity > 0
    ensures CartSetQuantity(cart, cart[i].product.id, quantity) == cart[i := Line(cart[i].product, quantity)]
    ensures CartItemCount(CartSetQuantity(cart, cart[i].product.id, quantity)) ==
      CartItemCount(cart) - cart[i].quantity + quantity
  {
    Lists.UpdateKeyAt(cart, LineKey, WithQuantity(quantity), i);
    Lists.SumUpdate(cart, i, Line(cart[i].product, quantity), LineQuantity);
  }

  /** Removing and setting quantities keep the products of the cart distinct. */
  lemma EditsKeepUnique(cart: seq<Line>, productId: string, quantity: int)
    requires Lists.UniqueKeys(cart, LineKey)
    ensures Lists.UniqueKeys(CartRemove(cart, productId), LineKey)
    ensures Lists.UniqueKeys(CartSetQuantity(cart, productId, quantity), LineKey)
  {
    Lists.RemoveKeyKeepsUniqueKeys(cart, LineKey, productId);
    if quantity > 0 {
      Lists.UpdateKeyKeepsUniqueKeys(cart, LineKey, productId, WithQuantity(quantity));
    }
  }

  /** Every basket's lines have distinct products. */
  predicate BasketsUnique(baskets: seq<Basket>) {
    forall i :: 0 <= i < |baskets| ==> Lists.UniqueKeys(baskets[i].items, LineKey)
  }

  /** Deleting a basket leaves only baskets whose lines have distinct products. */
  lemma DeleteBasketKeepsUnique(baskets: seq<Basket>, basketId: string)
    requires BasketsUnique(baskets)
    ensures BasketsUnique(Lists.RemoveKey(baskets, BasketId, basketId))
  {
    var r := Lists.RemoveKey(baskets, BasketId, basketId);
    forall i | 0 <= i < |r| ensures Lists.UniqueKeys(r[i].items, LineKey) {
      var j :| 0 <= j < |baskets| && baskets[j] == r[i];
    }
  }

  class App {
    var cart: seq<Line>
    var savedBaskets: seq<Basket>
    /** `deliveryMethod`: `null`, `'home'` or `'collection'`. */
    var deliveryMethod: Option<Delivery>
    var showCart: bool
    var showCheckout: bool

    /** The lines of the cart, and of every saved basket, have distinct products. */
    predicate Valid()
      reads this
    {
      Lists.UniqueKeys(cart, LineKey) && BasketsUnique(savedBaskets)
    }

    constructor ()
      ensures cart == [] && savedBaskets == [] && deliveryMethod == None && !showCart && !showCheckout
      ensures Valid()
    {
      cart := [];
      savedBaskets := [];
      deliveryMethod := None;
      showCart := false;
      showCheckout := false;
    }

    method AddToCart(product: Product)
      modifies this`cart
      ensures cart == CartAdd(old(cart), product)
      ensures old(Valid()) ==> Valid() && CartItemCount(cart) == CartItemCount(old(cart)) + 1
    {
      if old(Valid()) {
        AddCountsOneMore(cart, product);
      }
      var existing := Lists.Find(cart, Lists.KeyIs(LineKey, product.id));
      if existing.Some? {
        cart := Lists.UpdateKey(cart, LineKey, product.id, Increment);
        return;
      }
      cart := cart + [Line(product, 1)];
    }

    method RemoveFromCart(productId: string)
      modifies this`cart
      ensures cart == CartRemove(old(cart), productId)
      ensures old(Valid()) ==> Valid()
    {
      if old(Valid()) {
        EditsKeepUnique(cart, productId, 0);
      }
      cart := Lists.RemoveKey(cart, LineKey, productId);
    }

    method UpdateQuantity(productId: string, quantity: int)
      modifies this`cart
      ensures cart == CartSetQuantity(old(cart), productId, quantity)
      ensures old(Valid()) ==> Valid()
    {
      if old(Valid()) {
        EditsKeepUnique(cart, productId, quantity);
      }
      if quantity <= 0 {
        RemoveFromCart(productId);
        return;
      }
      cart := Lists.UpdateKey(cart, LineKey, productId, WithQuantity(quantity));
    }

    /** `saveBasket(name)`: refused for an empty cart; `newId` is the value of `crypto.randomUUID()`. */
    method SaveBasket(name: string, newId: string)
      modifies this`savedBaskets
      ensures old(cart) == [] ==> savedBaskets == old(savedBaskets)
      ensures old(cart) != [] ==> savedBaskets == old(savedBaskets) + [Basket(newId, name, cart)]
      ensures old(Valid()) ==> Valid()
    {
      if |cart| == 0 {
        return;
      }
      savedBaskets := savedBaskets + [Basket(newId, name, cart)];
    }

    /** `loadBasket(basket)`: the cart becomes the basket's items, whatever it held, and the cart panel opens. */
    method LoadBasket(basket: Basket)
      modifies this`cart, this`showCart
      ensures cart == basket.items && showCart
      ensures old(Valid()) && basket in old(savedBaskets) ==> Valid()
    {
      cart := basket.items;
      showCart := true;
    }

    method DeleteBasket(basketId: string)
      modifies this`savedBaskets
      ensures savedBaskets == Lists.RemoveKey(old(savedBaskets), BasketId, basketId)
      ensures old(Valid()) ==> Valid()
    {
      if old(Valid()) {
        DeleteBasketKeepsUnique(savedBaskets, basketId);
      }
      savedBaskets := Lists.RemoveKey(savedBaskets, BasketId, basketId);
    }

    /** `handleCheckout`: opens checkout only for a non-empty cart. */
    method HandleCheckout()
      modifies this`showCheckout
      ensures showCheckout == (old(showCheckout) || cart != [])
    {
      if |cart| == 0 {
        return;
      }
      showCheckout := true;
    }

    /** `completeOrder`: empties the cart, forgets the delivery method and closes both panels. */
    method CompleteOrder()
      modifies this`cart, this`deliveryMethod, this`showCheckout, this`showCart
      ensures cart == [] && deliveryMethod == None && !showCheckout && !showCart
      ensures CartItemCount(cart) == 0
      ensures old(Valid()) ==> Valid()
    {
      cart := [];
      deliveryMethod := None;
      showCheckout := false;
      showCart := false;
    }
  }
}

=== FILE: authcontext.dfy ===
/**
 * The account store of src/context/AuthContext.tsx: a map from lower-cased email to the
 * stored account (user record, salted password hash, salt), the signed-in user, and the
 * address book of that user. The address operations rebuild the list with `map`/`filter`
 * and write it back through `updateProfile`; the list functions below are what they build.
 */
module AuthContext {
  import opened Wrappers
  import opened Types
  import Lists
  import Text
  import Crypto

  /** `StoredUser`: the record kept for one account. */
  datatype StoredUser = StoredUser(user: User, passwordHash: string, salt: string)

  /** The outcomes login and register report. */
  datatype AuthMessage = InvalidCredentials | LoginSucceeded | EmailTaken | AccountCreated

  function AuthMessageText(m: AuthMessage): string {
    match m
    case InvalidCredentials => "Invalid email or password"
    case LoginSucceeded => "Login successful! Welcome back."
    case EmailTaken => "An account with this email already exists"
    case AccountCreated => "Account created successfully! Welcome to Harvest Basket."
  }

  /** `{ success, message }`. */
  datatype AuthResult = AuthResult(success: bool, message: AuthMessage)

  /** `Partial<User>`: the fields an `updateProfile` call supplies. */
  datatype ProfilePatch = ProfilePatch(
    id: Option<string>,
    email: Option<string>,
    name: Option<string>,
    phone: Option<string>,
    addresses: Option<seq<Address>>)

  /** A patch that supplies only the address list. */
  function AddressesPatch(addresses: seq<Address>): ProfilePatch {
    ProfilePatch(None, None, None, None, Some(addresses))
  }

  /** `{ ...user, ...data }`: supplied fields win, the others are kept. */
  function Merge(u: User, patch: ProfilePatch): (r: User)
    ensures patch == ProfilePatch(None, None, None, None, None) ==> r == u
    ensures patch.addresses.Some? && patch == AddressesPatch(patch.addresses.value) ==>
      r == u.(addresses := patch.addresses.value)
    ensures patch.email.None? ==> r.email == u.email
  {
    User(
      patch.id.GetOr(u.id),
      patch.email.GetOr(u.email),
      patch.name.GetOr(u.name),
      patch.phone.GetOr(u.phone),
      patch.addresses.GetOr(u.addresses))
  }

  /** The account `register` stores: the user record and the hash of the password with the salt appended. */
  function NewAccount(digest: string -> Crypto.Digest, newId: string, emailLower: string, password: string,
                      name: string, phone: string, salt: string): (account: StoredUser)
    ensures account.user == User(newId, emailLower, Text.Trim(name), Text.Trim(phone), [])
    ensures account.salt == salt && |account.passwordHash| == 64 && Crypto.IsLowerHex(account.passwordHash)
    ensures Crypto.FromHex(account.passwordHash) == digest(password + salt)
  {
    StoredUser(
      User(newId, emailLower, Text.Trim(name), Text.Trim(phone), []),
      Crypto.HashPasswordWithSalt(digest, password, salt),
      salt)
  }

  /** The password, with the account's salt appended, hashes to the account's stored hash. */
  predicate PasswordMatches(digest: string -> Crypto.Digest, account: StoredUser, password: string) {
    Crypto.HashPasswordWithSalt(digest, password, account.salt) == account.passwordHash
  }

  /** The account `register` stores accepts the password it was created with, and (salt fixed) only passwords with the same salted digest. */
  lemma NewAccountAcceptsIff(digest: string -> Crypto.Digest, newId: string, emailLower: string, password: string,
                             name: string, phone: string, salt: string, attempt: string)
    ensures PasswordMatches(digest, NewAccount(digest, newId, emailLower, password, name, phone, salt), attempt) <==>
      digest(attempt + salt) == digest(password + salt)
  {
    Crypto.SaltedHashesAgreeIff(digest, attempt, salt, password, salt);
  }

  // ---------------------------------------------------------------- address book

  function DefaultFlag(a: Address): int {
    if a.isDefault then 1 else 0
  }

  /** How many addresses are marked default. */
  function DefaultCount(addresses: seq<Address>): int {
    Lists.Sum(addresses, DefaultFlag)
  }

  /** The step `a => ({ ...a, isDefault: false })`. */
  function ClearDefault(a: Address): Address {
    a.(isDefault := false)
  }

  /** The list `addAddress` writes back: old defaults cleared, the new address last. */
  function WithNewAddress(addresses: seq<Address>, a: Address): (r: seq<Address>)
    ensures |r| == |addresses| + 1
    ensures forall i :: 0 <= i < |addresses| ==> r[i] == addresses[i].(isDefault := false)
    ensures r[|addresses|].isDefault <==> a.isDefault || addresses == []
    ensures r[|addresses|].(isDefault := a.isDefault) == a
  {
    var cleared := Lists.Map(addresses, ClearDefault);
    cleared + [if a.isDefault || |addresses| == 0 then a.(isDefault := true) else a]
  }

  /** The step of `updateAddress(a)`. */
  function AddressUpdater(a: Address): Address -> Address {
    (x: Address) => if x.id == a.id then a else if a.isDefault && x.isDefault then x.(isDefault := false) else x
  }

  /** The list `updateAddress(a)` writes back. */
  function ReplaceAddress(addresses: seq<Address>, a: Address): (r: seq<Address>)
    ensures |r| == |addresses|
    ensures forall i :: 0 <= i < |addresses| && addresses[i].id == a.id ==> r[i] == a
    ensures forall i :: 0 <= i < |addresses| && addresses[i].id != a.id ==>
      r[i] == if a.isDefault then addresses[i].(isDefault := false) else addresses[i]
  {
    Lists.Map(addresses, AddressUpdater(a))
  }

  /** The list `deleteAddress(addressId)` writes back. */
  function RemoveAddress(addresses: seq<Address>, addressId: string): (r: seq<Address>)
    ensures !Lists.HasKey(r, AddressKey, addressId)
    ensures forall i :: 0 <= i < |r| ==> r[i] in addresses
    ensures Lists.IsSubsequence(r, addresses)
    ensures forall i :: 0 <= i < |addresses| && addresses[i].id != addressId ==> addresses[i] in r
  {
    Lists.RemoveKey(addresses, AddressKey, addressId)
  }

  /** The step `a => ({ ...a, isDefault: a.id === addressId })`. */
  function MarkDefaultStep(addressId: string): Address -> Address {
    (a: Address) => a.(isDefault := a.id == addressId)
  }

  /** The list `setDefaultAddress(addressId)` writes back. */
  function MarkDefault(addresses: seq<Address>, addressId: string): (r: seq<Address>)
    ensures |r| == |addresses|
    ensures forall i :: 0 <= i < |addresses| ==>
      r[i].(isDefault := addresses[i].isDefault) == addresses[i] && (r[i].isDefault <==> addresses[i].id == addressId)
  {
    Lists.Map(addresses, MarkDefaultStep(addressId))
  }

  /** After `addAddress` exactly the new address is default when it asked to be or the book was empty; otherwise none is. */
  lemma AddAddressDefaults(addresses: seq<Address>, a: Address)
    ensures DefaultCount(WithNewAddress(addresses, a)) == if a.isDefault || addresses == [] then 1 else 0
  {
    var r := WithNewAddress(addresses, a);
    if r[|addresses|].isDefault {
      Lists.SumSingle(r, DefaultFlag, |addresses|);
    } else {
      Lists.SumZero(r, DefaultFlag);
    }
  }

  /** Setting a default in a book with distinct ids leaves one default if the id is known, none otherwise. */
  lemma SetDefaultAddressDefaults(addresses: seq<Address>, addressId: string)
    requires Lists.UniqueKeys(addresses, AddressKey)
    ensures DefaultCount(MarkDefault(addresses, addressId)) == if Lists.HasKey(addresses, AddressKey, addressId) then 1 else 0
  {
    var r := MarkDefault(addresses, addressId);
    if Lists.HasKey(addresses, AddressKey, addressId) {
      var i :| 0 <= i < |addresses| && addresses[i].id == addressId;
      Lists.SumSingle(r, DefaultFlag, i);
    } else {
      Lists.SumZero(r, DefaultFlag);
    }
  }

  /**
   * Updating with a default address in a book with distinct ids leaves one default if the id is
   * known and none otherwise; updating with a non-default address never adds a default.
   */
  lemma UpdateAddressDefaults(addresses: seq<Address>, a: Address)
    requires Lists.UniqueKeys(addresses, AddressKey)
    ensures a.isDefault ==>
      DefaultCount(ReplaceAddress(addresses, a)) == if Lists.HasKey(addresses, AddressKey, a.id) then 1 else 0
    ensures !a.isDefault ==> DefaultCount(ReplaceAddress(addresses, a)) <= DefaultCount(addresses)
  {
    var r := ReplaceAddress(addresses, a);
    if !a.isDefault {
      Lists.SumPointwiseLe(r, addresses, DefaultFlag);
    } else if Lists.HasKey(addresses, AddressKey, a.id) {
      var i :| 0 <= i < |addresses| && addresses[i].id == a.id;
      Lists.SumSingle(r, DefaultFlag, i);
    } else {
      Lists.SumZero(r, DefaultFlag);
    }
  }

  /** Deleting the default address of a book with one default and distinct ids leaves no default. */
  lemma DeleteDefaultAddressLeavesNone(addresses: seq<Address>, i: int)
    requires Lists.UniqueKeys(addresses, AddressKey) && 0 <= i < |addresses|
    requires addresses[i].isDefault && DefaultCount(addresses) == 1
    ensures DefaultCount(RemoveAddress(addresses, addresses[i].id)) == 0
  {
    Lists.RemoveKeyAt(addresses, AddressKey, i);
    Lists.SumRemove(addresses, i, DefaultFlag);
  }

  // ---------------------------------------------------------------- the store

  class AuthStore {
    /** The current user, `null` when signed out. */
    var user: Option<User>
    /** Accounts by lower-cased email. */
    var users: map<string, StoredUser>
    /** SHA-256 of a string's UTF-8 encoding. */
    const digest: string -> Crypto.Digest

    /**
     * Every account sits under its user's email, which is lower-case; the current user, if
     * any, is the user of the account under its email.
     */
    predicate Consistent()
      reads this
    {
      (forall k :: k in users ==> users[k].user.email == k && Text.ToLower(k) == k) &&
      (user.Some? ==> user.value.email in users && users[user.value.email].user == user.value)
    }

    /** `isAuthenticated`. */
    function IsAuthenticated(): (r: bool)
      reads this
      ensures r <==> user.Some?
      ensures r && Consistent() ==> user.value.email in users && users[user.value.email].user == user.value
    {
      user.Some?
    }

    /** A store with no accounts and nobody signed in (the state before anything is saved). */
    constructor (digest: string -> Crypto.Digest)
      ensures this.digest == digest && users == map[] && user == None
      ensures Consistent()
    {
      this.digest := digest;
      users := map[];
      user := None;
    }

    /**
     * `login(email, password)`: succeeds exactly when an account is stored under the lower-cased
     * email and the password with that account's salt hashes to its stored hash; an unknown email
     * and a wrong password give the same message.
     */
    method Login(email: string, password: string) returns (r: AuthResult)
      modifies this`user
      ensures var key := Text.ToLower(email);
        r.success <==> key in users && PasswordMatches(digest, users[key], password)
      ensures r.success ==> r.message == LoginSucceeded && user == Some(users[Text.ToLower(email)].user)
      ensures !r.success ==> r.message == InvalidCredentials && user == old(user)
      ensures old(Consistent()) ==> Consistent()
    {
      var key := Text.ToLower(email);
      if key !in users {
        return AuthResult(false, InvalidCredentials);
      }
      var entry := users[key];
      if PasswordMatches(digest, entry, password) {
        user := Some(entry.user);
        return AuthResult(true, LoginSucceeded);
      }
      return AuthResult(false, InvalidCredentials);
    }

    /**
     * `register(email, password, name, phone)`: `saltBytes` are the 16 random bytes of
     * `generateSalt` and `newId` the value of `crypto.randomUUID()`.
     */
    method Register(email: string, password: string, name: string, phone: string, saltBytes: seq<Crypto.Byte>, newId: string)
      returns (r: AuthResult)
      requires |saltBytes| == Crypto.SaltLength
      modifies this`user, this`users
      ensures var key := Text.ToLower(email);
        key in old(users) ==> !r.success && r.message == EmailTaken && users == old(users) && user == old(user)
      ensures var key := Text.ToLower(email);
        var account := NewAccount(digest, newId, key, password, name, phone, Crypto.GenerateSalt(saltBytes));
        key !in old(users) ==>
          r.success && r.message == AccountCreated && users == old(users)[key := account] && user == Some(account.user)
      ensures old(Consistent()) ==> Consistent()
    {
      var emailLower := Text.ToLower(email);
      if emailLower in users {
        return AuthResult(false, EmailTaken);
      }
      var salt := Crypto.GenerateSalt(saltBytes);
      var passwordHash := Crypto.HashPasswordWithSalt(digest, password, salt);
      var newUser := User(newId, emailLower, Text.Trim(name), Text.Trim(phone), []);
      users := users[emailLower := StoredUser(newUser, passwordHash, salt)];
      user := Some(newUser);
      Text.ToLowerIdempotent(email);
      return AuthResult(true, AccountCreated);
    }

    method Logout()
      modifies this`user
      ensures user == None
      ensures old(Consistent()) ==> Consistent()
    {
      user := None;
    }

    /**
     * `updateProfile(data)`: nothing when signed out; otherwise the merged record becomes the
     * current user and replaces the user of the account stored under the current user's
     * (old) email, if there is one.
     */
    method UpdateProfile(patch: ProfilePatch)
      modifies this`user, this`users
      ensures old(user).None? ==> user == old(user) && users == old(users)
      ensures old(user).Some? ==> user == Some(Merge(old(user).value, patch))
      ensures old(user).Some? && old(user).value.email in old(users) ==>
        var key := old(user).value.email;
        users == old(users)[key := old(users)[key].(user := Merge(old(user).value, patch))]
      ensures old(user).Some? && old(user).value.email !in old(users) ==> users == old(users)
      ensures old(Consistent()) && patch.email.None? ==> Consistent()
    {
      if user.None? {
        return;
      }
      var current := user.value;
      var updated := Merge(current, patch);
      user := Some(updated);
      if current.email in users {
        var entry := users[current.email];
        users := users[current.email := entry.(user := updated)];
      }
    }

    /** `addAddress(data)`: the address gets the fresh id `newId` (any id in `data` is ignored). */
    method AddAddress(data: Address, newId: string)
      modifies this`user, this`users
      ensures old(user).None? ==> user == old(user) && users == old(users)
      ensures old(user).Some? ==>
        user == Some(old(user).value.(addresses := WithNewAddress(old(user).value.addresses, data.(id := newId))))
      ensures old(user).Some? && old(user).value.email in old(users) ==>
        var key := old(user).value.email;
        users == old(users)[key := old(users)[key].(user := user.value)]
      ensures old(user).Some? && old(user).value.email !in old(users) ==> users == old(users)
      ensures old(Consistent()) ==> Consistent()
    {
      if user.None? {
        return;
      }
      var addresses := WithNewAddress(user.value.addresses, data.(id := newId));
      UpdateProfile(AddressesPatch(addresses));
    }

    method UpdateAddress(address: Address)
      modifies this`user, this`users
      ensures old(user).None? ==> user == old(user) && users == old(users)
      ensures old(user).Some? ==>
        user == Some(old(user).value.(addresses := ReplaceAddress(old(user).value.addresses, address)))
      ensures old(user).Some? && old(user).value.email in old(users) ==>
        var key := old(user).value.email;
        users == old(users)[key := old(users)[key].(user := user.value)]
      ensures old(user).Some? && old(user).value.email !in old(users) ==> users == old(users)
      ensures old(Consistent()) ==> Consistent()
    {
      if user.None? {
        return;
      }
      var addresses := ReplaceAddress(user.value.addresses, address);
      UpdateProfile(AddressesPatch(addresses));
    }

    method DeleteAddress(addressId: string)
      modifies this`user, this`users
      ensures old(user).None? ==> user == old(user) && users == old(users)
      ensures old(user).Some? ==>
        user == Some(old(user).value.(addresses := RemoveAddress(old(user).value.addresses, addressId)))
      ensures old(user).Some? && old(user).value.email in old(users) ==>
        var key := old(user).value.email;
        users == old(users)[key := old(users)[key].(user := user.value)]
      ensures old(user).Some? && old(user).value.email !in old(users) ==> users == old(users)
      ensures old(Consistent()) ==> Consistent()
    {
      if user.None? {
        return;
      }
      var addresses := RemoveAddress(user.value.addresses, addressId);
      UpdateProfile(AddressesPatch(addresses));
    }

    method SetDefaultAddress(addressId: string)
      modifies this`user, this`users
      ensures old(user).None? ==> user == old(user) && users == old(users)
      ensures old(user).Some? ==>
        user == Some(old(user).value.(addresses := MarkDefault(old(user).value.addresses, addressId)))
      ensures old(user).Some? && old(user).value.email in old(users) ==>
        var key := old(user).value.email;
        users == old(users)[key := old(users)[key].(user := user.value)]
      ensures old(user).Some? && old(user).value.email !in old(users) ==> users == old(users)
      ensures old(Consistent()) ==> Consistent()
    {
      if user.None? {
        return;
      }
      var addresses := MarkDefault(user.value.addresses, addressId);
      UpdateProfile(AddressesPatch(addresses));
    }
  }
}

=== FILE: authmodal.dfy ===
/**
 * The sign-in / sign-up dialog of src/components/AuthModal.tsx: per-field values, error lists
 * and touched flags keyed by field name, validation on blur and on change of a touched field,
 * and the submit gate that calls the auth store only when the form passes the validators the
 * current mode needs (two for login, four for registration).
 */
module AuthModal {
  import opened Wrappers
  import opened Validation
  import Text
  import Crypto
  import AuthContext
  import Types

  datatype Mode = Login | Register

  /** `{ type: 'success' | 'error', text }`. */
  datatype MessageKind = Success | Error
  datatype FormMessage = FormMessage(kind: MessageKind, text: string)

  /** The four inputs of the form. */
  datatype Field = Email | Password | Name | Phone

  /** The shape `{ email, password, name, phone }` of `formData`, `errors` and `touched`. */
  datatype Fields<T> = Fields(email: T, password: T, name: T, phone: T) {
    function Get(f: Field): T {
      match f
      case Email => email
      case Password => password
      case Name => name
      case Phone => phone
    }

    /** `{ ...prev, [f]: v }`. */
    function Set(f: Field, v: T): (r: Fields<T>)
      ensures r.Get(f) == v
      ensures forall g :: g != f ==> r.Get(g) == Get(g)
    {
      match f
      case Email => this.(email := v)
      case Password => this.(password := v)
      case Name => this.(name := v)
      case Phone => this.(phone := v)
    }
  }

  function Uniform<T>(v: T): Fields<T> {
    Fields(v, v, v, v)
  }

  /** The field a handler's `field` string names; `None` for any other string. */
  function FieldNamed(field: string): (r: Option<Field>)
    ensures r == Some(Email) <==> field == "email"
    ensures r == Some(Password) <==> field == "password"
    ensures r == Some(Name) <==> field == "name"
    ensures r == Some(Phone) <==> field == "phone"
  {
    if field == "email" then Some(Email)
    else if field == "password" then Some(Password)
    else if field == "name" then Some(Name)
    else if field == "phone" then Some(Phone)
    else None
  }

  /** The message shown when the submit gate refuses the form. */
  const FixErrorsText := "Please fix the errors in the form"

  /** The error list of the validator for field `f`. */
  function FieldErrors(f: Field, value: string): seq<ErrorMessage> {
    match f
    case Email => EmailErrors(value)
    case Password => PasswordErrors(value)
    case Name => NameErrors(value)
    case Phone => PhoneErrors(value)
  }

  /** The error record after `validateField(field, value)`: only a known field's entry is replaced. */
  function ErrorsAfter(errors: Fields<seq<ErrorMessage>>, field: string, value: string): (r: Fields<seq<ErrorMessage>>)
    ensures FieldNamed(field).None? ==> r == errors
    ensures FieldNamed(field).Some? ==> var f := FieldNamed(field).value;
      r.Get(f) == FieldErrors(f, value) && forall g :: g != f ==> r.Get(g) == errors.Get(g)
  {
    match FieldNamed(field)
    case None => errors
    case Some(f) => errors.Set(f, FieldErrors(f, value))
  }

  /** Whether the submit gate lets the form through in `mode`. */
  predicate FormAccepted(mode: Mode, email: string, password: string, name: string, phone: string) {
    EmailErrors(email) == [] && PasswordErrors(password) == [] &&
    (mode == Register ==> NameErrors(name) == [] && PhoneErrors(phone) == [])
  }

  /**
   * What the gate checks, in terms of the fields' contents: login needs a well-formed email and
   * an acceptable password; registration also needs a valid name and phone number.
   */
  lemma FormAcceptedIff(mode: Mode, email: string, password: string, name: string, phone: string)
    ensures FormAccepted(mode, email, password, name, phone) <==>
      (!Text.IsBlank(email) && MatchesEmailPattern(email) && Text.Utf16Length(email) <= 254) &&
      (8 <= Text.Utf16Length(password) <= 128 && HasUpper(password) && HasLower(password) && HasDigit(password) && HasSpecial(password)) &&
      (mode == Register ==>
        (Text.Utf16Length(Text.Trim(name)) >= 2 && Text.Utf16Length(name) <= 100 && forall i | 0 <= i < |name| :: NameChar(name[i])) &&
        (forall i | 0 <= i < |phone| :: PhoneChar(phone[i])) && 10 <= |DigitsOnly(phone)| <= 15)
  {
    EmailAcceptedIff(email);
    PasswordAcceptedIff(password);
    NameAcceptedIff(name);
    PhoneAcceptedIff(phone);
  }

  /** A form accepted for registration is accepted for login; the converse fails only on name or phone. */
  lemma RegisterGateIsStricter(email: string, password: string, name: string, phone: string)
    ensures FormAccepted(Register, email, password, name, phone) ==> FormAccepted(Login, email, password, name, phone)
    ensures FormAccepted(Login, email, password, name, phone) && !FormAccepted(Register, email, password, name, phone) ==>
      NameErrors(name) != [] || PhoneErrors(phone) != []
  {
  }

  /** `passwordStrength`: shown only while registering with a non-empty password. */
  function StrengthShown(mode: Mode, password: string): (r: Option<Strength>)
    ensures r.Some? <==> mode == Register && password != []
    ensures r.Some? ==> r.value == PasswordStrength(password) && r.value.strength <= 6
  {
    if mode == Register && password != [] then Some(PasswordStrength(password)) else None
  }

  /** A password that passes the registration gate is always shown as "Strong". */
  lemma AcceptedRegistrationShowsStrong(email: string, password: string, name: string, phone: string)
    requires FormAccepted(Register, email, password, name, phone)
    ensures StrengthShown(Register, password).Some?
    ensures StrengthShown(Register, password).value.level == Strong
  {
    PasswordAcceptedIff(password);
    AcceptedPasswordIsStrong(password);
  }

  /** The message set after the auth store answers: its kind follows `success`, its text is the store's. */
  function ResultMessage(r: AuthContext.AuthResult): (m: FormMessage)
    ensures m.kind == Success <==> r.success
    ensures m.text == AuthContext.AuthMessageText(r.message)
  {
    FormMessage(if r.success then Success else Error, AuthContext.AuthMessageText(r.message))
  }

  /** The error record `handleSubmit` stores: name and phone are not checked when logging in. */
  function SubmitErrors(mode: Mode, data: Fields<string>): (r: Fields<seq<ErrorMessage>>)
    ensures r.email == EmailErrors(data.email) && r.password == PasswordErrors(data.password)
    ensures mode == Login ==> r.name == [] && r.phone == []
    ensures mode == Register ==> r.name == NameErrors(data.name) && r.phone == PhoneErrors(data.phone)
  {
    Fields(EmailErrors(data.email), PasswordErrors(data.password),
           if mode == Register then NameErrors(data.name) else [],
           if mode == Register then PhoneErrors(data.phone) else [])
  }

  /** The form passes the gate exactly when every error list `handleSubmit` stores is empty. */
  lemma SubmitErrorsEmptyIffAccepted(mode: Mode, data: Fields<string>)
    ensures SubmitErrors(mode, data) == Uniform([]) <==> FormAccepted(mode, data.email, data.password, data.name, data.phone)
  {
  }

  /**
   * How the auth store answers a submitted form: `login` succeeds exactly for a stored account
   * under the lower-cased email whose salted hash the password matches; `register` succeeds
   * exactly when no account is stored under it.
   */
  predicate AuthAnswer(mode: Mode, data: Fields<string>, users: map<string, AuthContext.StoredUser>,
                       digest: string -> Crypto.Digest, success: bool) {
    var key := Text.ToLower(data.email);
    if mode == Login then success <==> key in users && AuthContext.PasswordMatches(digest, users[key], data.password)
    else success <==> key !in users
  }

  /**
   * The auth store after a successful call: `login` signs in the user stored under the
   * lower-cased email and keeps the accounts; `register` stores the new account, salted with
   * the salt drawn from `saltBytes`, under that email and signs its user in.
   */
  predicate SucceededState(mode: Mode, data: Fields<string>, users: map<string, AuthContext.StoredUser>,
                           digest: string -> Crypto.Digest, saltBytes: seq<Crypto.Byte>, newId: string,
                           newUser: Option<Types.User>, newUsers: map<string, AuthContext.StoredUser>)
    requires |saltBytes| == Crypto.SaltLength
  {
    var key := Text.ToLower(data.email);
    if mode == Login then
      key in users && newUsers == users && newUser == Some(users[key].user)
    else
      var account := AuthContext.NewAccount(digest, newId, key, data.password, data.name, data.phone,
        Crypto.GenerateSalt(saltBytes));
      newUsers == users[key := account] && newUser == Some(account.user)
  }

  /**
   * The validators `handleSubmit` runs on `data` in `mode`: email and password always, name and
   * phone only when registering (their lists stay empty when logging in). `accepted` is the
   * `isValid` the gate computes from the validators' own verdicts.
   */
  method ValidateForm(mode: Mode, data: Fields<string>) returns (errors: Fields<seq<ErrorMessage>>, accepted: bool)
    ensures errors == SubmitErrors(mode, data)
    ensures accepted <==> FormAccepted(mode, data.email, data.password, data.name, data.phone)
  {
    var emailValidation := ValidateEmail(data.email);
    var passwordValidation := ValidatePassword(data.password);
    var bothValid := emailValidation.isValid && passwordValidation.isValid;
    if mode == Login {
      errors := Fields(emailValidation.errors, passwordValidation.errors, [], []);
      accepted := bothValid;
    } else {
      var nameValidation := ValidateName(data.name);
      var phoneValidation := ValidatePhone(data.phone);
      errors := Fields(emailValidation.errors, passwordValidation.errors, nameValidation.errors, phoneValidation.errors);
      accepted := bothValid && nameValidation.isValid && phoneValidation.isValid;
    }
  }

  class AuthModal {
    const auth: AuthContext.AuthStore
    var mode: Mode
    var loading: bool
    var message: Option<FormMessage>
    var showPassword: bool
    var formData: Fields<string>
    var errors: Fields<seq<ErrorMessage>>
    var touched: Fields<bool>

    /** The dialog as opened in `initialMode`. */
    constructor (auth: AuthContext.AuthStore, initialMode: Mode)
      ensures this.auth == auth && mode == initialMode && !loading
      ensures formData == Uniform("") && errors == Uniform([]) && touched == Uniform(false)
      ensures message == None && !showPassword
    {
      this.auth := auth;
      mode := initialMode;
      loading := false;
      message := None;
      showPassword := false;
      formData := Uniform("");
      errors := Uniform([]);
      touched := Uniform(false);
    }

    /** `resetForm`: empty values, no errors, nothing touched, no message, password hidden. */
    method ResetForm()
      modifies this`formData, this`errors, this`touched, this`message, this`showPassword
      ensures formData == Uniform("") && errors == Uniform([]) && touched == Uniform(false)
      ensures message == None && !showPassword
    {
      formData := Uniform("");
      errors := Uniform([]);
      touched := Uniform(false);
      message := None;
      showPassword := false;
    }

    /** The effect of opening the dialog: the requested mode and a fresh form. */
    method Open(initialMode: Mode)
      modifies this`mode, this`formData, this`errors, this`touched, this`message, this`showPassword
      ensures mode == initialMode
      ensures formData == Uniform("") && errors == Uniform([]) && touched == Uniform(false)
      ensures message == None && !showPassword
    {
      mode := initialMode;
      ResetForm();
    }

    /** `validateField(field, value)`: replaces that field's errors; an unknown field changes nothing. */
    method ValidateField(field: string, value: string)
      modifies this`errors
      ensures errors == ErrorsAfter(old(errors), field, value)
    {
      var validation: ValidationResult;
      match FieldNamed(field)
      case None =>
        return;
      case Some(Email) =>
        validation := ValidateEmail(value);
        errors := errors.(email := validation.errors);
      case Some(Password) =>
        validation := ValidatePassword(value);
        errors := errors.(password := validation.errors);
      case Some(Name) =>
        validation := ValidateName(value);
        errors := errors.(name := validation.errors);
      case Some(Phone) =>
        validation := ValidatePhone(value);
        errors := errors.(phone := validation.errors);
    }

    /** `handleBlur(field)`: marks the field touched, then validates its current value. */
    method HandleBlur(field: string)
      modifies this`touched, this`errors
      ensures FieldNamed(field).None? ==> touched == old(touched) && errors == old(errors)
      ensures FieldNamed(field).Some? ==> var f := FieldNamed(field).value;
        touched == old(touched).Set(f, true) && errors == old(errors).Set(f, FieldErrors(f, formData.Get(f)))
    {
      match FieldNamed(field)
      case None =>
      case Some(f) =>
        touched := touched.Set(f, true);
        ValidateField(field, formData.Get(f));
    }

    /** `handleChange(field, value)`: stores the value, and revalidates only a field already touched. */
    method HandleChange(field: string, value: string)
      modifies this`formData, this`errors
      ensures FieldNamed(field).None? ==> formData == old(formData) && errors == old(errors)
      ensures FieldNamed(field).Some? ==> var f := FieldNamed(field).value;
        formData == old(formData).Set(f, value) &&
        errors == if touched.Get(f) then old(errors).Set(f, FieldErrors(f, value)) else old(errors)
    {
      match FieldNamed(field)
      case None =>
      case Some(f) =>
        formData := formData.Set(f, value);
        if touched.Get(f) {
          ValidateField(field, value);
        }
    }

    /** `switchMode`: the other mode, with a fresh form. */
    method SwitchMode()
      modifies this`mode, this`formData, this`errors, this`touched, this`message, this`showPassword
      ensures mode == if old(mode) == Login then Register else Login
      ensures formData == Uniform("") && errors == Uniform([]) && touched == Uniform(false)
      ensures message == None && !showPassword
    {
      mode := if mode == Login then Register else Login;
      ResetForm();
    }

    /**
     * The validation half of `handleSubmit`: every field is marked touched and the errors of
     * the validators the mode uses are stored; `accepted` is the gate's verdict.
     */
    method CheckForm() returns (accepted: bool)
      modifies this`touched, this`errors
      ensures touched == Uniform(true) && errors == SubmitErrors(mode, formData)
      ensures accepted <==> FormAccepted(mode, formData.email, formData.password, formData.name, formData.phone)
    {
      touched := Uniform(true);
      errors, accepted := ValidateForm(mode, formData);
    }

    /** The call half of `handleSubmit`: `login` or `register` on the auth store, by mode. */
    method CallAuth(saltBytes: seq<Crypto.Byte>, newId: string) returns (r: AuthContext.AuthResult)
      requires |saltBytes| == Crypto.SaltLength
      modifies auth`user, auth`users
      ensures AuthAnswer(mode, formData, old(auth.users), auth.digest, r.success)
      ensures mode == Login ==> auth.users == old(auth.users)
      ensures !r.success ==> auth.user == old(auth.user) && auth.users == old(auth.users)
      ensures r.success ==> SucceededState(mode, formData, old(auth.users), auth.digest, saltBytes, newId, auth.user, auth.users)
      ensures old(auth.Consistent()) ==> auth.Consistent()
    {
      if mode == Login {
        r := auth.Login(formData.email, formData.password);
      } else {
        r := auth.Register(formData.email, formData.password, formData.name, formData.phone, saltBytes, newId);
      }
    }

    /**
     * `handleSubmit`: a refused form sets the "fix the errors" message and calls nothing;
     * otherwise `result` is the answer of the auth store's `login` or `register`, which sets
     * the message. `saltBytes` and `newId` are the random inputs `register` draws.
     */
    method HandleSubmit(saltBytes: seq<Crypto.Byte>, newId: string) returns (result: Option<AuthContext.AuthResult>)
      requires |saltBytes| == Crypto.SaltLength
      modifies this`touched, this`errors, this`message, this`loading, auth`user, auth`users
      ensures touched == Uniform(true) && !loading && errors == SubmitErrors(mode, formData)
      ensures result.Some? <==> FormAccepted(mode, formData.email, formData.password, formData.name, formData.phone)
      ensures result.None? ==>
        message == Some(FormMessage(Error, FixErrorsText)) && auth.user == old(auth.user) && auth.users == old(auth.users)
      ensures result.Some? ==> message == Some(ResultMessage(result.value))
      ensures result.Some? ==> AuthAnswer(mode, formData, old(auth.users), auth.digest, result.value.success)
      ensures result.Some? && mode == Login ==> auth.users == old(auth.users)
      ensures result.Some? && !result.value.success ==> auth.user == old(auth.user) && auth.users == old(auth.users)
      ensures result.Some? && result.value.success ==>
        SucceededState(mode, formData, old(auth.users), auth.digest, saltBytes, newId, auth.user, auth.users)
    {
      message := None;
      loading := true;
      var accepted := CheckForm();
      if !accepted {
        loading := false;
        message := Some(FormMessage(Error, FixErrorsText));
        return None;
      }
      var r := CallAuth(saltBytes, newId);
      message := Some(ResultMessage(r));
      loading := false;
      return Some(r);
    }
  }
}

=== FILE: cartpage.dfy ===
/**
 * The checkout page of src/pages/Cart.tsx: the ordered guards that decide whether the payment
 * step opens, saving the cart as a named basket, and what payment success and cancel do. The
 * page reads the cart from the domain store and the signed-in state from the auth store, and
 * writes back to the store only through its operations.
 */
module CartPage {
  import opened Types
  import Text
  import StoreContext
  import AuthContext

  /** Which guard of `handleProceedToPayment` stops the checkout, or `Proceed` when none does. */
  datatype Gate = EmptyCart | LoginRequired | AddressRequired | DropOffRequired | Proceed

  /**
   * The guards in the order the page applies them: an empty cart, then a signed-out visitor,
   * then the selection the chosen delivery method needs (`''` stands for nothing selected).
   */
  function CheckoutGate(cart: seq<CartItem>, authenticated: bool, delivery: Delivery,
                        selectedAddress: string, selectedDropOff: string): (g: Gate)
    ensures g == Proceed <==>
      cart != [] && authenticated &&
      (delivery == Home ==> selectedAddress != []) &&
      (delivery == Collection ==> selectedDropOff != [])
    ensures g == EmptyCart <==> cart == []
    ensures g == LoginRequired <==> cart != [] && !authenticated
    ensures g == AddressRequired ==> delivery == Home && selectedAddress == []
    ensures g == DropOffRequired ==> delivery == Collection && selectedDropOff == []
  {
    if |cart| == 0 then EmptyCart
    else if !authenticated then LoginRequired
    else if delivery == Home && |selectedAddress| == 0 then AddressRequired
    else if delivery == Collection && |selectedDropOff| == 0 then DropOffRequired
    else Proceed
  }

  /** The selection for the method not chosen is never looked at. */
  lemma UnusedSelectionIgnored(cart: seq<CartItem>, authenticated: bool, delivery: Delivery,
                               a1: string, a2: string, d1: string, d2: string)
    ensures delivery == Home ==>
      CheckoutGate(cart, authenticated, delivery, a1, d1) == CheckoutGate(cart, authenticated, delivery, a1, d2)
    ensures delivery == Collection ==>
      CheckoutGate(cart, authenticated, delivery, a1, d1) == CheckoutGate(cart, authenticated, delivery, a2, d1)
  {
  }

  /** The `Cart` component's own state, over the shared stores. */
  class Cart {
    const store: StoreContext.Store
    const auth: AuthContext.AuthStore
    var delivery: Delivery
    var selectedAddress: string
    var selectedDropOff: string
    var basketName: string
    var showSaveBasket: bool
    var showPayment: bool

    /** The page as first rendered: home delivery, nothing selected, no form and no payment step. */
    constructor (store: StoreContext.Store, auth: AuthContext.AuthStore)
      ensures this.store == store && this.auth == auth
      ensures delivery == Home && selectedAddress == [] && selectedDropOff == []
      ensures basketName == [] && !showSaveBasket && !showPayment
    {
      this.store := store;
      this.auth := auth;
      delivery := Home;
      selectedAddress := [];
      selectedDropOff := [];
      basketName := [];
      showSaveBasket := false;
      showPayment := false;
    }

    /**
     * `handleProceedToPayment`: `g` is the guard that decided (each refusal shows its own alert;
     * a signed-out visitor is also sent home). Only `Proceed` opens the payment step.
     */
    method HandleProceedToPayment() returns (g: Gate)
      modifies this`showPayment
      ensures g == CheckoutGate(store.cart, auth.IsAuthenticated(), delivery, selectedAddress, selectedDropOff)
      ensures showPayment == (old(showPayment) || g == Proceed)
    {
      if |store.cart| == 0 {
        return EmptyCart;
      }
      if !auth.IsAuthenticated() {
        return LoginRequired;
      }
      if delivery == Home && |selectedAddress| == 0 {
        return AddressRequired;
      }
      if delivery == Collection && |selectedDropOff| == 0 {
        return DropOffRequired;
      }
      showPayment := true;
      return Proceed;
    }

    /**
     * `handleSaveBasket`: a blank name saves nothing and keeps the form as it is; otherwise the
     * cart is saved under the name as typed (untrimmed), and the name and form are reset.
     * `newId` is the id the store's `saveBasket` draws.
     */
    method HandleSaveBasket(newId: string)
      modifies this`basketName, this`showSaveBasket, store`savedBaskets
      ensures Text.Trim(old(basketName)) == [] ==>
        basketName == old(basketName) && showSaveBasket == old(showSaveBasket) &&
        store.savedBaskets == old(store.savedBaskets)
      ensures Text.Trim(old(basketName)) != [] ==>
        store.savedBaskets == old(store.savedBaskets) + [SavedBasket(newId, old(basketName), store.cart)] &&
        basketName == [] && !showSaveBasket
      ensures old(store.Valid()) ==> store.Valid()
    {
      if Text.Trim(basketName) == [] {
        return;
      }
      store.SaveBasket(basketName, newId);
      basketName := [];
      showSaveBasket := false;
    }

    /** `handlePaymentSuccess`: the order is placed and the cart emptied. */
    method HandlePaymentSuccess(paymentIntentId: string)
      modifies store`cart
      ensures store.cart == []
      ensures old(store.Valid()) ==> store.Valid()
    {
      store.ClearCart();
    }

    /** The payment form's cancel: back to the cart, which is kept as it was. */
    method CancelPayment()
      modifies this`showPayment
      ensures !showPayment
    {
      showPayment := false;
    }
  }
}

=== FILE: crypto.dfy ===
/**
 * Password hashing of src/utils/crypto.ts: bytes rendered as lowercase hexadecimal, a
 * 16-byte salt, and the salted SHA-256 hash. SHA-256 over the UTF-8 encoding of a string
 * (FIPS PUB 180-4, section 6.2) is the parameter `digest`, a function from strings to
 * 32-byte digests about which nothing else is assumed; the random bytes of a salt are a
 * parameter as well.
 */
module Crypto {

  /** One element of a `Uint8Array`. */
  type Byte = b: int | 0 <= b < 256

  /** The 32-byte output of SHA-256. */
  type Digest = s: seq<Byte> | |s| == 32 witness seq(32, i => 0)

  /** Number of random bytes in a salt. */
  const SaltLength := 16

  predicate IsHexChar(c: char) {
    '0' <= c <= '9' || 'a' <= c <= 'f'
  }

  /** Every character is a lowercase hexadecimal digit. */
  predicate IsLowerHex(s: string) {
    forall i :: 0 <= i < |s| ==> IsHexChar(s[i])
  }

  /** The digit `Number.prototype.toString(16)` writes for a value below 16. */
  function HexDigit(d: int): (c: char)
    requires 0 <= d < 16
    ensures IsHexChar(c)
    ensures d < 10 ==> c as int - '0' as int == d
    ensures 10 <= d ==> c as int - 'a' as int == d - 10
  {
    if d < 10 then ('0' as int + d) as char else ('a' as int + d - 10) as char
  }

  /** The value of a lowercase hexadecimal digit. */
  function HexValue(c: char): (d: int)
    requires IsHexChar(c)
    ensures 0 <= d < 16 && HexDigit(d) == c
  {
    if c <= '9' then c as int - '0' as int else c as int - 'a' as int + 10
  }

  /** Reading a digit gives back the value it was written for. */
  lemma HexValueOfDigit(d: int)
    requires 0 <= d < 16
    ensures HexValue(HexDigit(d)) == d
  {
  }

  /** `n.toString(16)`: the digits of `n` in base 16, most significant first, without leading zeros. */
  function ToStringRadix16(n: nat): (r: string)
    ensures r != [] && IsLowerHex(r)
  {
    if n < 16 then [HexDigit(n)] else ToStringRadix16(n / 16) + [HexDigit(n % 16)]
  }

  /** `s.padStart(width, fill)`: `fill` repeated in front of `s` up to `width` characters. */
  function PadStart(s: string, width: nat, fill: char): (r: string)
    ensures |r| == if |s| < width then width else |s|
    ensures r[|r| - |s|..] == s
    ensures forall i :: 0 <= i < |r| - |s| ==> r[i] == fill
  {
    if |s| < width then seq(width - |s|, i => fill) + s else s
  }

  /** The two lowercase hexadecimal digits of a byte, high digit first. */
  function ByteToHex(b: Byte): (r: string)
    ensures |r| == 2 && IsLowerHex(r)
  {
    [HexDigit(b / 16), HexDigit(b % 16)]
  }

  /** `b.toString(16).padStart(2, '0')` is the byte's two digits: a single digit gets a leading zero. */
  lemma PaddedRadix16IsByteToHex(b: Byte)
    ensures PadStart(ToStringRadix16(b), 2, '0') == ByteToHex(b)
  {
    var digits := ToStringRadix16(b);
    if b < 16 {
      assert digits == [HexDigit(b)];
    } else {
      assert b / 16 < 16;
      assert ToStringRadix16(b / 16) == [HexDigit(b / 16)];
      assert digits == [HexDigit(b / 16), HexDigit(b % 16)];
    }
  }

  /** `Array.from(bytes).map(b => b.toString(16).padStart(2, '0')).join('')`. */
  function ToHex(bytes: seq<Byte>): (r: string)
    ensures |r| == 2 * |bytes|
    ensures IsLowerHex(r)
  {
    if bytes == [] then [] else ByteToHex(bytes[0]) + ToHex(bytes[1..])
  }

  /** Encoding a sequence with a known first byte. */
  lemma ToHexCons(b: Byte, rest: seq<Byte>)
    ensures ToHex([b] + rest) == [HexDigit(b / 16), HexDigit(b % 16)] + ToHex(rest)
  {
    assert ([b] + rest)[1..] == rest;
  }

  /** The encoding of byte `i` sits at positions `2 * i` and `2 * i + 1`. */
  lemma {:induction false} ToHexAt(bytes: seq<Byte>, i: int)
    requires 0 <= i < |bytes|
    ensures ToHex(bytes)[2 * i..2 * i + 2] == ByteToHex(bytes[i])
  {
    if i > 0 {
      ToHexAt(bytes[1..], i - 1);
      assert ToHex(bytes)[2..] == ToHex(bytes[1..]);
    }
  }

  /** Reads lowercase hexadecimal back into bytes, two digits per byte (a trailing odd digit is dropped). */
  function FromHex(s: string): (bytes: seq<Byte>)
    requires IsLowerHex(s)
    ensures 2 * |bytes| <= |s| < 2 * |bytes| + 2
  {
    if |s| < 2 then [] else [16 * HexValue(s[0]) + HexValue(s[1])] + FromHex(s[2..])
  }

  /** A byte is its high digit times sixteen plus its low digit, and conversely. */
  lemma SplitByte(hi: int, lo: int)
    requires 0 <= hi < 16 && 0 <= lo < 16
    ensures (16 * hi + lo) / 16 == hi && (16 * hi + lo) % 16 == lo
  {
  }

  /** Reading back an encoding gives the original bytes. */
  lemma {:induction false} FromHexToHex(bytes: seq<Byte>)
    ensures FromHex(ToHex(bytes)) == bytes
  {
    if bytes != [] {
      var b, rest := bytes[0], ToHex(bytes[1..]);
      var r := ToHex(bytes);
      assert r == ByteToHex(b) + rest;
      assert r[2..] == rest;
      var hi, lo := b / 16, b % 16;
      assert b == 16 * hi + lo;
      HexValueOfDigit(hi);
      HexValueOfDigit(lo);
      FromHexToHex(bytes[1..]);
      assert FromHex(r) == [16 * HexValue(r[0]) + HexValue(r[1])] + FromHex(rest);
    }
  }

  /** Different byte sequences have different encodings. */
  lemma ToHexInjective(a: seq<Byte>, b: seq<Byte>)
    ensures ToHex(a) == ToHex(b) <==> a == b
  {
    if ToHex(a) == ToHex(b) {
      FromHexToHex(a);
      FromHexToHex(b);
    }
  }

  /** `generateSalt`: the 16 random bytes, rendered as hexadecimal. */
  function GenerateSalt(randomBytes: seq<Byte>): (salt: string)
    requires |randomBytes| == SaltLength
    ensures |salt| == 32 && IsLowerHex(salt)
    ensures FromHex(salt) == randomBytes
  {
    FromHexToHex(randomBytes);
    ToHex(randomBytes)
  }

  /** `hashPassword`: the digest of the password, rendered as hexadecimal. */
  function HashPassword(digest: string -> Digest, password: string): (hash: string)
    ensures |hash| == 64 && IsLowerHex(hash)
    ensures FromHex(hash) == digest(password)
  {
    FromHexToHex(digest(password));
    ToHex(digest(password))
  }

  /** `verifyPassword`: whether the password hashes to the stored string. */
  function VerifyPassword(digest: string -> Digest, password: string, hash: string): (ok: bool)
    ensures ok ==> |hash| == 64 && IsLowerHex(hash) && FromHex(hash) == digest(password)
  {
    HashPassword(digest, password) == hash
  }

  /** A stored string verifies exactly when it is 64 hexadecimal digits that read back as the password's digest. */
  lemma VerifyPasswordIff(digest: string -> Digest, password: string, hash: string)
    ensures VerifyPassword(digest, password, hash) <==>
      |hash| == 64 && IsLowerHex(hash) && FromHex(hash) == digest(password)
  {
    if |hash| == 64 && IsLowerHex(hash) && FromHex(hash) == digest(password) {
      FromHexRoundTrip(hash, 32);
    }
  }

  /** If the digits after the first pair round-trip, so does the whole string. */
  lemma FromHexRoundTripStep(s: string)
    requires |s| >= 2 && IsLowerHex(s)
    requires ToHex(FromHex(s[2..])) == s[2..]
    ensures ToHex(FromHex(s)) == s
  {
    var hi, lo := HexValue(s[0]), HexValue(s[1]);
    var b: Byte := 16 * hi + lo;
    var tail := FromHex(s[2..]);
    assert FromHex(s) == [b] + tail;
    SplitByte(hi, lo);
    assert ByteToHex(b) == [s[0], s[1]];
    ToHexCons(b, tail);
    assert s == [s[0], s[1]] + s[2..];
  }

  /** Encoding what was read back from `pairs` pairs of digits gives the original string. */
  lemma {:induction false} FromHexRoundTrip(s: string, pairs: nat)
    requires |s| == 2 * pairs && IsLowerHex(s)
    ensures ToHex(FromHex(s)) == s
  {
    if s != [] {
      FromHexRoundTrip(s[2..], pairs - 1);
      FromHexRoundTripStep(s);
    }
  }

  /** `hashPasswordWithSalt`: the hash of the password with the salt appended. */
  function HashPasswordWithSalt(digest: string -> Digest, password: string, salt: string): (hash: string)
    ensures |hash| == 64 && IsLowerHex(hash)
    ensures FromHex(hash) == digest(password + salt)
  {
    HashPassword(digest, password + salt)
  }

  /** Two salted hashes agree exactly when the digests of the salted passwords agree. */
  lemma SaltedHashesAgreeIff(digest: string -> Digest, p1: string, s1: string, p2: string, s2: string)
    ensures HashPasswordWithSalt(digest, p1, s1) == HashPasswordWithSalt(digest, p2, s2) <==>
      digest(p1 + s1) == digest(p2 + s2)
  {
    ToHexInjective(digest(p1 + s1), digest(p2 + s2));
  }
}

=== FILE: lists.dfy ===
/**
 * The array operations the stores build every new list with: `filter`, `map`, `find`,
 * and the notions used to state what they keep (order, uniqueness of a key).
 */
module Lists {
  import opened Wrappers

  /** `r` is `s` with some elements dropped and the rest in their original order. */
  predicate IsSubsequence<T(==)>(r: seq<T>, s: seq<T>)
    decreases |s|
  {
    if r == [] then true
    else if s == [] then false
    else if r[0] == s[0] then IsSubsequence(r[1..], s[1..])
    else IsSubsequence(r, s[1..])
  }

  /** No two elements of `s` share a key. */
  predicate UniqueKeys<T, K(==)>(s: seq<T>, key: T -> K) {
    forall i, j :: 0 <= i < j < |s| ==> key(s[i]) != key(s[j])
  }

  /**
   * `Array.prototype.filter`: exactly the elements satisfying `keep`, in their original order
   * (`FilterSpec` states which elements it keeps, and in what order).
   */
  function Filter<T(==)>(s: seq<T>, keep: T -> bool): (r: seq<T>)
    ensures |r| <= |s|
    ensures (forall i :: 0 <= i < |s| ==> keep(s[i])) ==> r == s
  {
    if s == [] then []
    else if keep(s[0]) then [s[0]] + Filter(s[1..], keep)
    else Filter(s[1..], keep)
  }

  /**
   * The filter keeps every element satisfying `keep`, as many times as it occurs, and nothing
   * else, as a subsequence.
   */
  lemma FilterSpec<T>(s: seq<T>, keep: T -> bool)
    ensures forall i :: 0 <= i < |Filter(s, keep)| ==> Filter(s, keep)[i] in s && keep(Filter(s, keep)[i])
    ensures forall i :: 0 <= i < |s| && keep(s[i]) ==> s[i] in Filter(s, keep)
    ensures IsSubsequence(Filter(s, keep), s)
    ensures forall x :: multiset(Filter(s, keep))[x] == if keep(x) then multiset(s)[x] else 0
  {
    FilterMembers(s, keep);
    FilterCounts(s, keep);
  }

  /** The filter keeps every element satisfying `keep` and nothing else, as a subsequence. */
  lemma {:induction false} FilterMembers<T>(s: seq<T>, keep: T -> bool)
    ensures forall i :: 0 <= i < |Filter(s, keep)| ==> Filter(s, keep)[i] in s && keep(Filter(s, keep)[i])
    ensures forall i :: 0 <= i < |s| && keep(s[i]) ==> s[i] in Filter(s, keep)
    ensures IsSubsequence(Filter(s, keep), s)
  {
    if s != [] {
      var tail := s[1..];
      var rest := Filter(tail, keep);
      var r := Filter(s, keep);
      FilterMembers(tail, keep);
      forall i | 0 <= i < |s| && keep(s[i]) ensures s[i] in r {
        if i > 0 {
          assert s[i] == tail[i - 1];
        }
      }
      if keep(s[0]) {
        assert r == [s[0]] + rest && r[1..] == rest;
        forall i | 0 <= i < |r| ensures r[i] in s && keep(r[i]) {
          if i > 0 {
            assert r[i] == rest[i - 1];
            var j :| 0 <= j < |tail| && tail[j] == r[i];
            assert s[j + 1] == r[i];
          }
        }
      } else {
        assert r == rest;
        forall i | 0 <= i < |r| ensures r[i] in s && keep(r[i]) {
          var j :| 0 <= j < |tail| && tail[j] == r[i];
          assert s[j + 1] == r[i];
        }
        assert rest != [] ==> rest[0] != s[0];
      }
    }
  }

  /** The filter keeps every copy of a passing element and no copy of any other. */
  lemma {:induction false} FilterCounts<T>(s: seq<T>, keep: T -> bool)
    ensures forall x :: multiset(Filter(s, keep))[x] == if keep(x) then multiset(s)[x] else 0
  {
    if s != [] {
      var tail := s[1..];
      FilterCounts(tail, keep);
      assert s == [s[0]] + tail;
      assert multiset(s) == multiset([s[0]]) + multiset(tail);
      if keep(s[0]) {
        assert multiset(Filter(s, keep)) == multiset([s[0]]) + multiset(Filter(tail, keep));
      }
    }
  }

  /** `Array.prototype.map`: one result per element, each the image of the element at the same index. */
  function Map<T, U>(s: seq<T>, f: T -> U): (r: seq<U>)
    ensures |r| == |s|
    ensures forall i :: 0 <= i < |s| ==> r[i] == f(s[i])
  {
    if s == [] then [] else [f(s[0])] + Map(s[1..], f)
  }

  /** The index of the first occurrence of `x` in `s`. */
  function FirstIndex<T(==)>(s: seq<T>, x: T): (k: nat)
    requires x in s
    ensures k < |s| && s[k] == x
    ensures forall j :: 0 <= j < k ==> s[j] != x
  {
    if s[0] == x then 0 else 1 + FirstIndex(s[1..], x)
  }

  /** An element of a prefix first occurs where it first occurs in the prefix. */
  lemma FirstIndexPrefix<T>(s: seq<T>, n: int, x: T)
    requires 0 <= n <= |s| && x in s[..n]
    ensures x in s && FirstIndex(s, x) == FirstIndex(s[..n], x)
  {
    var m := FirstIndex(s[..n], x);
    assert s[m] == x;
    var k := FirstIndex(s, x);
    assert k <= m;
    assert s[..n][k] == s[k];
  }

  /** The set-insertion step: `x` is added at the end unless it is already in `d`. */
  function Insert<T(==)>(d: seq<T>, x: T): seq<T> {
    if x in d then d else d + [x]
  }

  /**
   * `Array.from(new Set(s))`: each distinct element once, in the order of first appearance
   * (a `Set` keeps insertion order and ignores repeated insertions).
   */
  function Distinct<T(==)>(s: seq<T>): (r: seq<T>)
    ensures forall i :: 0 <= i < |r| ==> r[i] in s
    ensures forall i :: 0 <= i < |s| ==> s[i] in r
    ensures forall i, j :: 0 <= i < j < |r| ==> r[i] != r[j]
    ensures forall i, j :: 0 <= i < j < |r| ==> FirstIndex(s, r[i]) < FirstIndex(s, r[j])
    decreases |s|
  {
    if s == [] then []
    else
      var d := Distinct(s[..|s| - 1]);
      DistinctStep(s, d);
      Insert(d, s[|s| - 1])
  }

  /** Inserting the last element of `s` after the distinct elements of the rest. */
  lemma DistinctStep<T>(s: seq<T>, d: seq<T>)
    requires s != []
    requires forall i :: 0 <= i < |d| ==> d[i] in s[..|s| - 1]
    requires forall i :: 0 <= i < |s| - 1 ==> s[i] in d
    requires forall i, j :: 0 <= i < j < |d| ==> d[i] != d[j]
    requires forall i, j :: 0 <= i < j < |d| ==> FirstIndex(s[..|s| - 1], d[i]) < FirstIndex(s[..|s| - 1], d[j])
    ensures var r := Insert(d, s[|s| - 1]);
      (forall i :: 0 <= i < |r| ==> r[i] in s) &&
      (forall i :: 0 <= i < |s| ==> s[i] in r) &&
      (forall i, j :: 0 <= i < j < |r| ==> r[i] != r[j]) &&
      (forall i, j :: 0 <= i < j < |r| ==> FirstIndex(s, r[i]) < FirstIndex(s, r[j]))
  {
    var n := |s| - 1;
    var r := Insert(d, s[n]);
    assert s == s[..n] + [s[n]];
    forall i | 0 <= i < |d|
      ensures d[i] in s && FirstIndex(s, d[i]) == FirstIndex(s[..n], d[i]) < n
    {
      FirstIndexPrefix(s, n, d[i]);
    }
    forall i | 0 <= i < |s|
      ensures s[i] in r
    {
      if i < n {
        assert s[i] == s[..n][i];
      }
    }
    if s[n] !in d {
      assert FirstIndex(s, s[n]) == n by {
        forall j | 0 <= j < n
          ensures s[j] != s[n]
        {
          assert s[j] in d;
        }
      }
      assert r[|d|] == s[n];
    }
  }

  /** The index of the first element satisfying `p`, or `|s|` when there is none. */
  function IndexWhere<T>(s: seq<T>, p: T -> bool): (k: nat)
    ensures k <= |s|
    ensures forall j :: 0 <= j < k ==> !p(s[j])
    ensures k < |s| ==> p(s[k])
  {
    if s == [] then 0 else if p(s[0]) then 0 else 1 + IndexWhere(s[1..], p)
  }

  /** `Array.prototype.find`: the first element satisfying `p`, if any. */
  function Find<T>(s: seq<T>, p: T -> bool): (r: Option<T>)
    ensures r.None? <==> forall i :: 0 <= i < |s| ==> !p(s[i])
    ensures r.Some? ==> r.value == s[IndexWhere(s, p)] && p(r.value)
  {
    var k := IndexWhere(s, p);
    if k < |s| then Some(s[k]) else None
  }

  /** The test `x => key(x) === k`. */
  function KeyIs<T, K(==)>(key: T -> K, k: K): T -> bool {
    x => key(x) == k
  }

  /** The test `x => key(x) !== k`. */
  function KeyIsNot<T, K(==)>(key: T -> K, k: K): T -> bool {
    x => key(x) != k
  }

  /** Some element of `s` has key `k`. */
  predicate HasKey<T, K(==)>(s: seq<T>, key: T -> K, k: K) {
    exists i :: 0 <= i < |s| && key(s[i]) == k
  }

  /** `s.filter(x => key(x) !== k)`: every element with key `k` dropped, the others kept in order. */
  function RemoveKey<T(==,!new), K(==)>(s: seq<T>, key: T -> K, k: K): (r: seq<T>)
    ensures forall i :: 0 <= i < |r| ==> key(r[i]) != k && r[i] in s
    ensures forall i :: 0 <= i < |s| && key(s[i]) != k ==> s[i] in r
    ensures IsSubsequence(r, s)
    ensures forall x :: multiset(r)[x] == if key(x) != k then multiset(s)[x] else 0
    ensures !HasKey(s, key, k) ==> r == s
  {
    FilterSpec(s, KeyIsNot(key, k));
    Filter(s, KeyIsNot(key, k))
  }

  /** The step `x => key(x) === k ? f(x) : x`. */
  function Patch<T, K(==)>(key: T -> K, k: K, f: T -> T): T -> T {
    x => if key(x) == k then f(x) else x
  }

  /** `s.map(x => key(x) === k ? f(x) : x)`: `f` applied to the elements with key `k`, the others untouched. */
  function UpdateKey<T, K(==)>(s: seq<T>, key: T -> K, k: K, f: T -> T): (r: seq<T>)
    ensures |r| == |s|
    ensures forall i :: 0 <= i < |s| && key(s[i]) != k ==> r[i] == s[i]
    ensures forall i :: 0 <= i < |s| && key(s[i]) == k ==> r[i] == f(s[i])
    ensures !HasKey(s, key, k) ==> r == s
  {
    Map(s, Patch(key, k, f))
  }

  /** The step `_ => x`. */
  function Always<T>(x: T): T -> T {
    _ => x
  }

  /** `s.map(y => key(y) === key(x) ? x : y)`: every element sharing `x`'s key replaced by `x`. */
  function ReplaceKey<T, K(==)>(s: seq<T>, key: T -> K, x: T): (r: seq<T>)
    ensures |r| == |s|
    ensures forall i :: 0 <= i < |s| ==> r[i] == if key(s[i]) == key(x) then x else s[i]
    ensures forall i :: 0 <= i < |s| ==> key(r[i]) == key(s[i])
    ensures !HasKey(s, key, key(x)) ==> r == s
  {
    UpdateKey(s, key, key(x), Always(x))
  }

  /** `s.reduce((sum, x) => sum + f(x), 0)`. */
  function Sum<T>(s: seq<T>, f: T -> int): int {
    if s == [] then 0 else Sum(s[..|s| - 1], f) + f(s[|s| - 1])
  }

  /** The sum over a concatenation adds the sums of the parts. */
  lemma {:induction false} SumAppend<T>(a: seq<T>, b: seq<T>, f: T -> int)
    ensures Sum(a + b, f) == Sum(a, f) + Sum(b, f)
  {
    if b == [] {
      assert a + b == a;
    } else {
      assert (a + b)[..|a + b| - 1] == a + b[..|b| - 1];
      assert (a + b)[|a + b| - 1] == b[|b| - 1];
      SumAppend(a, b[..|b| - 1], f);
    }
  }

  /** The sum over one element is that element's value. */
  lemma SumOne<T>(x: T, f: T -> int)
    ensures Sum([x], f) == f(x)
  {
    assert [x][..0] == [];
  }

  /** The sum splits around any index. */
  lemma SumSplit<T>(s: seq<T>, i: int, f: T -> int)
    requires 0 <= i < |s|
    ensures Sum(s, f) == Sum(s[..i], f) + f(s[i]) + Sum(s[i + 1..], f)
  {
    var pre, x, post := s[..i], s[i], s[i + 1..];
    assert s == pre + ([x] + post);
    SumAppend(pre, [x] + post, f);
    SumAppend([x], post, f);
    SumOne(x, f);
  }

  /** Replacing one element changes the sum by the difference of the two elements' values. */
  lemma SumUpdate<T>(s: seq<T>, i: int, x: T, f: T -> int)
    requires 0 <= i < |s|
    ensures Sum(s[i := x], f) == Sum(s, f) - f(s[i]) + f(x)
  {
    var t := s[i := x];
    assert t[..i] == s[..i] && t[i + 1..] == s[i + 1..];
    SumSplit(s, i, f);
    SumSplit(t, i, f);
  }

  /** Values of at least one sum to at least the length. */
  lemma {:induction false} SumAtLeastLength<T>(s: seq<T>, f: T -> int)
    ensures (forall i :: 0 <= i < |s| ==> f(s[i]) >= 1) ==> Sum(s, f) >= |s|
  {
    if s != [] && forall i :: 0 <= i < |s| ==> f(s[i]) >= 1 {
      var init := s[..|s| - 1];
      assert forall i :: 0 <= i < |init| ==> init[i] == s[i];
      SumAtLeastLength(init, f);
    }
  }

  /** A sum of zeros is zero. */
  lemma {:induction false} SumZero<T>(s: seq<T>, f: T -> int)
    requires forall i :: 0 <= i < |s| ==> f(s[i]) == 0
    ensures Sum(s, f) == 0
  {
    if s != [] {
      SumZero(s[..|s| - 1], f);
    }
  }

  /** One element worth one among zeros sums to one. */
  lemma {:induction false} SumSingle<T>(s: seq<T>, f: T -> int, i: int)
    requires 0 <= i < |s| && f(s[i]) == 1
    requires forall j :: 0 <= j < |s| && j != i ==> f(s[j]) == 0
    ensures Sum(s, f) == 1
  {
    var init := s[..|s| - 1];
    if i == |s| - 1 {
      SumZero(init, f);
    } else {
      SumSingle(init, f, i);
    }
  }

  /** Pointwise smaller values give a smaller sum. */
  lemma {:induction false} SumPointwiseLe<T>(s: seq<T>, t: seq<T>, f: T -> int)
    requires |s| == |t|
    requires forall i :: 0 <= i < |s| ==> f(s[i]) <= f(t[i])
    ensures Sum(s, f) <= Sum(t, f)
  {
    if s != [] {
      SumPointwiseLe(s[..|s| - 1], t[..|t| - 1], f);
    }
  }

  /** Dropping one element lowers the sum by that element's value. */
  lemma SumRemove<T>(s: seq<T>, i: int, f: T -> int)
    requires 0 <= i < |s|
    ensures Sum(s[..i] + s[i + 1..], f) == Sum(s, f) - f(s[i])
  {
    SumSplit(s, i, f);
    SumAppend(s[..i], s[i + 1..], f);
  }

  /** Filtering a sequence with a known first element. */
  lemma FilterCons<T>(x: T, s: seq<T>, keep: T -> bool)
    ensures Filter([x] + s, keep) == (if keep(x) then [x] else []) + Filter(s, keep)
  {
    assert ([x] + s)[1..] == s;
  }

  /** Mapping a concatenation maps each part. */
  lemma MapAppend<T, U>(a: seq<T>, b: seq<T>, f: T -> U)
    ensures Map(a + b, f) == Map(a, f) + Map(b, f)
  {
  }

  /** Concatenation nested to the right equals concatenation nested to the left. */
  lemma Regroup6<T>(a: seq<T>, b: seq<T>, c: seq<T>, d: seq<T>, e: seq<T>, f: seq<T>)
    ensures a + (b + (c + (d + (e + f)))) == a + b + c + d + e + f
  {
  }

  /** Mapping a right-nested concatenation of six parts gives the left-nested concatenation of their images. */
  lemma MapRegroup6<T, U>(a: seq<T>, b: seq<T>, c: seq<T>, d: seq<T>, e: seq<T>, f: seq<T>, g: T -> U)
    ensures Map(a + (b + (c + (d + (e + f)))), g) ==
      Map(a, g) + Map(b, g) + Map(c, g) + Map(d, g) + Map(e, g) + Map(f, g)
  {
    MapAppend(e, f, g);
    MapAppend(d, e + f, g);
    MapAppend(c, d + (e + f), g);
    MapAppend(b, c + (d + (e + f)), g);
    MapAppend(a, b + (c + (d + (e + f))), g);
    Regroup6(Map(a, g), Map(b, g), Map(c, g), Map(d, g), Map(e, g), Map(f, g));
  }

  /** Dropping elements never creates a clash of keys. */
  lemma {:induction false} FilterKeepsUniqueKeys<T, K>(s: seq<T>, keep: T -> bool, key: T -> K)
    requires UniqueKeys(s, key)
    ensures UniqueKeys(Filter(s, keep), key)
  {
    if s != [] {
      var rest := Filter(s[1..], keep);
      assert UniqueKeys(s[1..], key) by {
        forall i, j | 0 <= i < j < |s[1..]| ensures key(s[1..][i]) != key(s[1..][j]) {
          assert s[1..][i] == s[i + 1] && s[1..][j] == s[j + 1];
        }
      }
      FilterKeepsUniqueKeys(s[1..], keep, key);
      FilterMembers(s[1..], keep);
      if keep(s[0]) {
        var r := [s[0]] + rest;
        forall i, j | 0 <= i < j < |r| ensures key(r[i]) != key(r[j]) {
          if i == 0 {
            assert r[j] == rest[j - 1] && rest[j - 1] in s[1..];
            var k :| 0 <= k < |s[1..]| && s[1..][k] == r[j];
            assert s[k + 1] == r[j];
          } else {
            assert r[i] == rest[i - 1] && r[j] == rest[j - 1];
          }
        }
      }
    }
  }

  /** Removing by a key keeps the keys unique. */
  lemma RemoveKeyKeepsUniqueKeys<T(!new), K>(s: seq<T>, key: T -> K, k: K)
    requires UniqueKeys(s, key)
    ensures UniqueKeys(RemoveKey(s, key, k), key)
  {
    FilterKeepsUniqueKeys(s, KeyIsNot(key, k), key);
  }

  /** Filtering out exactly the element at index `i` drops that element and keeps the rest in order. */
  lemma {:induction false} FilterDropsOnly<T>(s: seq<T>, keep: T -> bool, i: int)
    requires 0 <= i < |s| && !keep(s[i])
    requires forall j :: 0 <= j < |s| && j != i ==> keep(s[j])
    ensures Filter(s, keep) == s[..i] + s[i + 1..]
  {
    var tail := s[1..];
    assert Filter(s, keep) == (if keep(s[0]) then [s[0]] else []) + Filter(tail, keep);
    if i == 0 {
      assert forall j :: 0 <= j < |tail| ==> keep(tail[j]) by {
        forall j | 0 <= j < |tail| ensures keep(tail[j]) {
          assert tail[j] == s[j + 1];
        }
      }
    } else {
      assert forall j :: 0 <= j < |tail| && j != i - 1 ==> keep(tail[j]) by {
        forall j | 0 <= j < |tail| && j != i - 1 ensures keep(tail[j]) {
          assert tail[j] == s[j + 1];
        }
      }
      assert tail[i - 1] == s[i];
      FilterDropsOnly(tail, keep, i - 1);
      assert tail[..i - 1] == s[1..i] && tail[i..] == s[i + 1..];
      assert s[..i] == [s[0]] + s[1..i];
    }
  }

  /** With unique keys, removing the key of element `i` drops exactly that element. */
  lemma RemoveKeyAt<T(!new), K>(s: seq<T>, key: T -> K, i: int)
    requires UniqueKeys(s, key) && 0 <= i < |s|
    ensures RemoveKey(s, key, key(s[i])) == s[..i] + s[i + 1..]
  {
    var keep := KeyIsNot(key, key(s[i]));
    forall j | 0 <= j < |s| && j != i ensures keep(s[j]) {
      if j < i {
        assert key(s[j]) != key(s[i]);
      } else {
        assert key(s[i]) != key(s[j]);
      }
    }
    FilterDropsOnly(s, keep, i);
  }

  /** With unique keys, updating the key of element `i` changes exactly that element. */
  lemma UpdateKeyAt<T, K>(s: seq<T>, key: T -> K, f: T -> T, i: int)
    requires UniqueKeys(s, key) && 0 <= i < |s|
    ensures UpdateKey(s, key, key(s[i]), f) == s[i := f(s[i])]
  {
  }

  /** An update that keeps every element's key keeps the keys unique. */
  lemma UpdateKeyKeepsUniqueKeys<T, K>(s: seq<T>, key: T -> K, k: K, f: T -> T)
    requires UniqueKeys(s, key)
    requires forall x :: key(f(x)) == key(x)
    ensures UniqueKeys(UpdateKey(s, key, k, f), key)
  {
  }

  /** A map that keeps every element's key keeps the keys unique. */
  lemma MapKeepsUniqueKeys<T, U, K>(s: seq<T>, f: T -> U, keyIn: T -> K, keyOut: U -> K)
    requires UniqueKeys(s, keyIn)
    requires forall i :: 0 <= i < |s| ==> keyOut(f(s[i])) == keyIn(s[i])
    ensures UniqueKeys(Map(s, f), keyOut)
  {
  }
}

=== FILE: shoppage.dfy ===
/**
 * The catalogue page of src/pages/Shop.tsx: the category list, the search-and-category
 * filter, the per-crop quantity input with its clamp, and adding to the domain store's cart
 * with the chosen quantity.
 */
module ShopPage {
  import opened Wrappers
  import opened Types
  import Lists
  import Text
  import StoreContext

  /** The category entry that selects every crop. */
  const All := "all"

  function CropCategory(c: Crop): string {
    c.category
  }

  /** `categories`: `'all'` followed by each crop category once, in order of first appearance. */
  function Categories(crops: seq<Crop>): (r: seq<string>)
    ensures |r| >= 1 && r[0] == All
    ensures forall i :: 0 <= i < |crops| ==> crops[i].category in r[1..]
    ensures forall i :: 1 <= i < |r| ==> exists j :: 0 <= j < |crops| && crops[j].category == r[i]
    ensures forall i, j :: 1 <= i < j < |r| ==> r[i] != r[j]
  {
    var categories := Lists.Map(crops, CropCategory);
    var distinct := Lists.Distinct(categories);
    CategoriesWitness(crops, categories, distinct);
    [All] + distinct
  }

  lemma CategoriesWitness(crops: seq<Crop>, categories: seq<string>, distinct: seq<string>)
    requires categories == Lists.Map(crops, CropCategory)
    requires forall i :: 0 <= i < |distinct| ==> distinct[i] in categories
    ensures forall i :: 0 <= i < |distinct| ==> exists j :: 0 <= j < |crops| && crops[j].category == distinct[i]
  {
    forall i | 0 <= i < |distinct|
      ensures exists j :: 0 <= j < |crops| && crops[j].category == distinct[i]
    {
      var j :| 0 <= j < |categories| && categories[j] == distinct[i];
      assert crops[j].category == distinct[i];
    }
  }

  /** The categories after `'all'` come in the order in which crops first show them. */
  lemma CategoriesInFirstAppearanceOrder(crops: seq<Crop>, i: int, j: int)
    requires 1 <= i < j < |Categories(crops)|
    ensures var categories := Lists.Map(crops, CropCategory);
      var r := Categories(crops);
      r[i] in categories && r[j] in categories &&
      Lists.FirstIndex(categories, r[i]) < Lists.FirstIndex(categories, r[j])
  {
    var categories := Lists.Map(crops, CropCategory);
    var distinct := Lists.Distinct(categories);
    assert Categories(crops) == [All] + distinct;
    assert Categories(crops)[i] == distinct[i - 1] && Categories(crops)[j] == distinct[j - 1];
  }

  /** Case-insensitive search over the name and the description. */
  predicate MatchesSearch(crop: Crop, searchTerm: string) {
    var term := Text.ToLower(searchTerm);
    Text.Contains(Text.ToLower(crop.name), term) || Text.Contains(Text.ToLower(crop.description), term)
  }

  predicate MatchesCategory(crop: Crop, selectedCategory: string) {
    selectedCategory == All || crop.category == selectedCategory
  }

  /** The filter callback of `filteredCrops`. */
  function Shown(searchTerm: string, selectedCategory: string): Crop -> bool {
    crop => MatchesSearch(crop, searchTerm) && MatchesCategory(crop, selectedCategory)
  }

  /** `filteredCrops`: the crops that match both the search and the category, in catalogue order. */
  function FilteredCrops(crops: seq<Crop>, searchTerm: string, selectedCategory: string): (r: seq<Crop>)
    ensures forall i :: 0 <= i < |r| ==>
      r[i] in crops && MatchesSearch(r[i], searchTerm) && MatchesCategory(r[i], selectedCategory)
    ensures forall i :: 0 <= i < |crops| && MatchesSearch(crops[i], searchTerm) && MatchesCategory(crops[i], selectedCategory) ==>
      crops[i] in r
    ensures Lists.IsSubsequence(r, crops)
    ensures forall c :: multiset(r)[c] ==
                        if MatchesSearch(c, searchTerm) && MatchesCategory(c, selectedCategory) then multiset(crops)[c] else 0
  {
    Lists.FilterSpec(crops, Shown(searchTerm, selectedCategory));
    Lists.Filter(crops, Shown(searchTerm, selectedCategory))
  }

  /** An empty search matches every crop, so only the category filters. */
  lemma EmptySearchFiltersByCategoryOnly(crops: seq<Crop>, selectedCategory: string)
    ensures forall i :: 0 <= i < |crops| && MatchesCategory(crops[i], selectedCategory) ==>
      crops[i] in FilteredCrops(crops, "", selectedCategory)
    ensures FilteredCrops(crops, "", All) == crops
  {
    forall c: Crop
      ensures MatchesSearch(c, "")
    {
      assert Text.ToLower("") == "";
      Text.ContainsEmpty(Text.ToLower(c.name));
    }
  }

  /**
   * The stored value of the quantity input: `Math.max(1, Math.min(stock, parsed || 1))`, where
   * `parsed` is `parseInt` of the text (`None` for `NaN`); `NaN` and `0` both fall back to 1.
   */
  function ClampQuantity(stock: int, parsed: Option<int>): (q: int)
    ensures q >= 1
    ensures stock >= 1 ==> q <= stock
    ensures parsed.Some? && 1 <= parsed.value && (parsed.value <= stock) ==> q == parsed.value
    ensures parsed.Some? && parsed.value > stock && stock >= 1 ==> q == stock
    ensures (parsed.None? || parsed.value == 0) && stock >= 1 ==> q == 1
    ensures (parsed.Some? && parsed.value < 0) || stock < 1 ==> q == 1
  {
    var v := if parsed.None? || parsed.value == 0 then 1 else parsed.value;
    var capped := if stock < v then stock else v;
    if capped < 1 then 1 else capped
  }

  /** `quantities[cropId] || 1`: the stored quantity, or 1 when none (or 0) is stored. */
  function QuantityFor(quantities: map<string, int>, cropId: string): (q: int)
    ensures q != 0
    ensures cropId in quantities && quantities[cropId] != 0 ==> q == quantities[cropId]
    ensures !(cropId in quantities && quantities[cropId] != 0) ==> q == 1
  {
    if cropId in quantities && quantities[cropId] != 0 then quantities[cropId] else 1
  }

  /** Every stored quantity is at least one. */
  predicate QuantitiesPositive(quantities: map<string, int>) {
    forall id :: id in quantities ==> quantities[id] >= 1
  }

  /** With every stored quantity at least one, the quantity added is at least one. */
  lemma AddedQuantityPositive(quantities: map<string, int>, cropId: string)
    requires QuantitiesPositive(quantities)
    ensures QuantityFor(quantities, cropId) >= 1
  {
  }

  /** The `Shop` component's own state, over the domain store. */
  class Shop {
    const store: StoreContext.Store
    var searchTerm: string
    var selectedCategory: string
    /** `quantities`: the quantity input of each crop that has one. */
    var quantities: map<string, int>

    predicate Valid()
      reads this
    {
      QuantitiesPositive(quantities)
    }

    constructor (store: StoreContext.Store)
      ensures this.store == store && searchTerm == [] && selectedCategory == All && quantities == map[]
      ensures Valid()
    {
      this.store := store;
      searchTerm := [];
      selectedCategory := All;
      quantities := map[];
    }

    /** The quantity input's change handler for `crop`, given the parsed text. */
    method SetQuantityInput(crop: Crop, parsed: Option<int>)
      modifies this`quantities
      ensures quantities == old(quantities)[crop.id := ClampQuantity(crop.stock, parsed)]
      ensures old(Valid()) ==> Valid()
    {
      quantities := quantities[crop.id := ClampQuantity(crop.stock, parsed)];
    }

    /**
     * `handleAddToCart(cropId)`: nothing happens for an id not in the catalogue; otherwise the
     * crop is added with its chosen quantity and its input goes back to 1.
     */
    method HandleAddToCart(cropId: string)
      modifies this`quantities, store`cart
      ensures !Lists.HasKey(store.crops, CropKey, cropId) ==>
        store.cart == old(store.cart) && quantities == old(quantities)
      ensures Lists.HasKey(store.crops, CropKey, cropId) ==>
        var crop := store.crops[Lists.IndexWhere(store.crops, Lists.KeyIs(CropKey, cropId))];
        crop.id == cropId &&
        store.cart == StoreContext.CartAdd(old(store.cart), crop, QuantityFor(old(quantities), cropId)) &&
        quantities == old(quantities)[cropId := 1]
      ensures old(Valid()) ==> Valid()
      ensures old(store.Valid()) ==> store.Valid()
      ensures old(Valid()) && old(store.Valid()) && Lists.HasKey(store.crops, CropKey, cropId) ==>
        StoreContext.TotalQuantity(store.cart) > StoreContext.TotalQuantity(old(store.cart))
    {
      var crop := Lists.Find(store.crops, Lists.KeyIs(CropKey, cropId));
      var quantity := QuantityFor(quantities, cropId);
      if crop.Some? {
        if old(Valid()) {
          AddedQuantityPositive(quantities, cropId);
        }
        store.AddToCart(crop.value, quantity);
        quantities := quantities[cropId := 1];
      }
    }
  }
}

=== FILE: storecontext.dfy ===
/**
 * The domain store of src/context/StoreContext.tsx: the cart, the saved baskets and the
 * admin catalogue of crops, farms and drop-off points. Every operation of the source hands
 * one state setter a new list built with `find`, `map`, `filter` or a spread; here each is a
 * method of `Store` that reassigns that one field, and the new list is the value of a
 * function of the old one, about which the lemmas below are stated.
 */
module StoreContext {
  import opened Wrappers
  import opened Types
  import Lists

  function ItemQuantity(item: CartItem): int {
    item.quantity
  }

  /** The number of units in a cart, summed over its lines. */
  function TotalQuantity(cart: seq<CartItem>): int {
    Lists.Sum(cart, ItemQuantity)
  }

  /** The step `item => ({ ...item, quantity: item.quantity + q })`. */
  function AddQuantity(q: int): CartItem -> CartItem {
    (item: CartItem) => item.(quantity := item.quantity + q)
  }

  /** The step `item => ({ ...item, quantity: q })`. */
  function SetQuantity(q: int): CartItem -> CartItem {
    (item: CartItem) => item.(quantity := q)
  }

  /** The step `c => ({ ...c, farmId })`. */
  function SetFarm(farmId: string): Crop -> Crop {
    (c: Crop) => c.(farmId := Some(farmId))
  }

  // ---------------------------------------------------------------- cart

  /** The cart after `addToCart(crop, quantity)`: merged into the line of that crop id, or a new last line. */
  function CartAdd(cart: seq<CartItem>, crop: Crop, quantity: int): (r: seq<CartItem>)
    ensures Lists.HasKey(cart, ItemKey, crop.id) ==> |r| == |cart|
    ensures !Lists.HasKey(cart, ItemKey, crop.id) ==> r == cart + [CartItem(crop, quantity)]
    ensures Lists.HasKey(r, ItemKey, crop.id)
  {
    if Lists.Find(cart, Lists.KeyIs(ItemKey, crop.id)).Some? then
      Lists.UpdateKey(cart, ItemKey, crop.id, AddQuantity(quantity))
    else
      var r := cart + [CartItem(crop, quantity)];
      assert r[|cart|].crop.id == crop.id;
      r
  }

  /** The cart after `removeFromCart(cropId)`. */
  function CartRemove(cart: seq<CartItem>, cropId: string): (r: seq<CartItem>)
    ensures !Lists.HasKey(r, ItemKey, cropId)
    ensures Lists.IsSubsequence(r, cart)
    ensures forall i :: 0 <= i < |cart| && cart[i].crop.id != cropId ==> cart[i] in r
    ensures !Lists.HasKey(cart, ItemKey, cropId) ==> r == cart
  {
    Lists.RemoveKey(cart, ItemKey, cropId)
  }

  /** The cart after `updateCartQuantity(cropId, quantity)`. */
  function CartSetQuantity(cart: seq<CartItem>, cropId: string, quantity: int): (r: seq<CartItem>)
    ensures quantity <= 0 ==> r == CartRemove(cart, cropId)
    ensures quantity > 0 ==> |r| == |cart|
    ensures quantity > 0 ==> forall i :: 0 <= i < |cart| ==>
      r[i].crop == cart[i].crop && r[i].quantity == if cart[i].crop.id == cropId then quantity else cart[i].quantity
    ensures !Lists.HasKey(cart, ItemKey, cropId) ==> r == cart
  {
    if quantity <= 0 then CartRemove(cart, cropId)
    else Lists.UpdateKey(cart, ItemKey, cropId, SetQuantity(quantity))
  }

  /** Adding a crop already in a cart with distinct crops adds to that line only, keeping its crop record. */
  lemma AddToCartMerges(cart: seq<CartItem>, crop: Crop, quantity: int, i: int)
    requires Lists.UniqueKeys(cart, ItemKey)
    requires 0 <= i < |cart| && cart[i].crop.id == crop.id
    ensures CartAdd(cart, crop, quantity) == cart[i := CartItem(cart[i].crop, cart[i].quantity + quantity)]
  {
    assert Lists.HasKey(cart, ItemKey, crop.id);
    Lists.UpdateKeyAt(cart, ItemKey, AddQuantity(quantity), i);
  }

  /** Adding keeps the crops of the cart distinct. */
  lemma AddToCartKeepsUnique(cart: seq<CartItem>, crop: Crop, quantity: int)
    requires Lists.UniqueKeys(cart, ItemKey)
    ensures Lists.UniqueKeys(CartAdd(cart, crop, quantity), ItemKey)
  {
    if Lists.HasKey(cart, ItemKey, crop.id) {
      Lists.UpdateKeyKeepsUniqueKeys(cart, ItemKey, crop.id, AddQuantity(quantity));
    }
  }

  /** In a cart with distinct crops, adding `quantity` of a crop adds exactly `quantity` units. */
  lemma AddToCartTotal(cart: seq<CartItem>, crop: Crop, quantity: int)
    requires Lists.UniqueKeys(cart, ItemKey)
    ensures TotalQuantity(CartAdd(cart, crop, quantity)) == TotalQuantity(cart) + quantity
  {
    if Lists.HasKey(cart, ItemKey, crop.id) {
      var i :| 0 <= i < |cart| && cart[i].crop.id == crop.id;
      AddToCartMerges(cart, crop, quantity, i);
      Lists.SumUpdate(cart, i, CartItem(cart[i].crop, cart[i].quantity + quantity), ItemQuantity);
    } else {
      var line := [CartItem(crop, quantity)];
      Lists.SumAppend(cart, line, ItemQuantity);
      assert line[..0] == [];
    }
  }

  /** In a cart with distinct crops, removing a line's crop drops that line only, and its units. */
  lemma RemoveFromCartAt(cart: seq<CartItem>, i: int)
    requires Lists.UniqueKeys(cart, ItemKey) && 0 <= i < |cart|
    ensures CartRemove(cart, cart[i].crop.id) == cart[..i] + cart[i + 1..]
    ensures TotalQuantity(CartRemove(cart, cart[i].crop.id)) == TotalQuantity(cart) - cart[i].quantity
  {
    Lists.RemoveKeyAt(cart, ItemKey, i);
    Lists.SumRemove(cart, i, ItemQuantity);
  }

  /** Removing keeps the crops of the cart distinct. */
  lemma RemoveFromCartKeepsUnique(cart: seq<CartItem>, cropId: string)
    requires Lists.UniqueKeys(cart, ItemKey)
    ensures Lists.UniqueKeys(CartRemove(cart, cropId), ItemKey)
  {
    Lists.RemoveKeyKeepsUniqueKeys(cart, ItemKey, cropId);
  }

  /** In a cart with distinct crops, a positive quantity replaces that line's quantity (no increment). */
  lemma SetQuantityAt(cart: seq<CartItem>, i: int, quantity: int)
    requires Lists.UniqueKeys(cart, ItemKey) && 0 <= i < |cart| && quantity > 0
    ensures CartSetQuantity(cart, cart[i].crop.id, quantity) == cart[i := CartItem(cart[i].crop, quantity)]
    ensures TotalQuantity(CartSetQuantity(cart, cart[i].crop.id, quantity)) ==
      TotalQuantity(cart) - cart[i].quantity + quantity
  {
    Lists.UpdateKeyAt(cart, ItemKey, SetQuantity(quantity), i);
    Lists.SumUpdate(cart, i, CartItem(cart[i].crop, quantity), ItemQuantity);
  }

  /** Setting a quantity keeps the crops of the cart distinct. */
  lemma SetQuantityKeepsUnique(cart: seq<CartItem>, cropId: string, quantity: int)
    requires Lists.UniqueKeys(cart, ItemKey)
    ensures Lists.UniqueKeys(CartSetQuantity(cart, cropId, quantity), ItemKey)
  {
    if quantity <= 0 {
      RemoveFromCartKeepsUnique(cart, cropId);
    } else {
      Lists.UpdateKeyKeepsUniqueKeys(cart, ItemKey, cropId, SetQuantity(quantity));
    }
  }

  // ---------------------------------------------------------------- baskets

  /** The cart after `loadBasket(basketId)`: the items of the first basket with that id, or the cart as it was. */
  function CartAfterLoad(baskets: seq<SavedBasket>, basketId: string, cart: seq<CartItem>): (r: seq<CartItem>)
    ensures var k := Lists.IndexWhere(baskets, Lists.KeyIs(BasketKey, basketId));
      r == if k < |baskets| then baskets[k].items else cart
  {
    match Lists.Find(baskets, Lists.KeyIs(BasketKey, basketId))
    case Some(basket) => basket.items
    case None => cart
  }

  /** Every basket's lines have distinct crops. */
  predicate BasketsUnique(baskets: seq<SavedBasket>) {
    forall i :: 0 <= i < |baskets| ==> Lists.UniqueKeys(baskets[i].items, ItemKey)
  }

  /** Loading from baskets with distinct crops gives a cart with distinct crops. */
  lemma LoadKeepsUnique(baskets: seq<SavedBasket>, basketId: string, cart: seq<CartItem>)
    requires BasketsUnique(baskets) && Lists.UniqueKeys(cart, ItemKey)
    ensures Lists.UniqueKeys(CartAfterLoad(baskets, basketId, cart), ItemKey)
  {
  }

  /** Deleting a basket leaves only baskets whose lines have distinct crops. */
  lemma DeleteBasketKeepsUnique(baskets: seq<SavedBasket>, basketId: string)
    requires BasketsUnique(baskets)
    ensures BasketsUnique(Lists.RemoveKey(baskets, BasketKey, basketId))
  {
    var r := Lists.RemoveKey(baskets, BasketKey, basketId);
    forall i | 0 <= i < |r| ensures Lists.UniqueKeys(r[i].items, ItemKey) {
      var j :| 0 <= j < |baskets| && baskets[j] == r[i];
    }
  }

  // ---------------------------------------------------------------- the store

  class Store {
    var crops: seq<Crop>
    var farms: seq<Farm>
    var dropOffPoints: seq<DropOffPoint>
    var cart: seq<CartItem>
    var savedBaskets: seq<SavedBasket>
    var isAdmin: bool

    /** The cart's lines have distinct crops, and so has every saved basket. */
    predicate Valid()
      reads this
    {
      Lists.UniqueKeys(cart, ItemKey) && BasketsUnique(savedBaskets)
    }

    /** A store over a catalogue (the sample data, or a restored copy), with an empty cart and no baskets. */
    constructor (crops: seq<Crop>, farms: seq<Farm>, dropOffPoints: seq<DropOffPoint>)
      ensures this.crops == crops && this.farms == farms && this.dropOffPoints == dropOffPoints
      ensures cart == [] && savedBaskets == [] && !isAdmin
      ensures Valid()
    {
      this.crops := crops;
      this.farms := farms;
      this.dropOffPoints := dropOffPoints;
      cart := [];
      savedBaskets := [];
      isAdmin := false;
    }

    method AddToCart(crop: Crop, quantity: int)
      modifies this`cart
      ensures cart == CartAdd(old(cart), crop, quantity)
      ensures old(Valid()) ==> Valid() && TotalQuantity(cart) == TotalQuantity(old(cart)) + quantity
    {
      if old(Valid()) {
        AddToCartKeepsUnique(cart, crop, quantity);
        AddToCartTotal(cart, crop, quantity);
      }
      var existing := Lists.Find(cart, Lists.KeyIs(ItemKey, crop.id));
      if existing.Some? {
        cart := Lists.UpdateKey(cart, ItemKey, crop.id, AddQuantity(quantity));
      } else {
        cart := cart + [CartItem(crop, quantity)];
      }
    }

    method RemoveFromCart(cropId: string)
      modifies this`cart
      ensures cart == CartRemove(old(cart), cropId)
      ensures old(Valid()) ==> Valid()
    {
      if old(Valid()) {
        RemoveFromCartKeepsUnique(cart, cropId);
      }
      cart := Lists.RemoveKey(cart, ItemKey, cropId);
    }

    method UpdateCartQuantity(cropId: string, quantity: int)
      modifies this`cart
      ensures cart == CartSetQuantity(old(cart), cropId, quantity)
      ensures quantity <= 0 ==> cart == CartRemove(old(cart), cropId)
      ensures old(Valid()) ==> Valid()
    {
      if old(Valid()) {
        SetQuantityKeepsUnique(cart, cropId, quantity);
      }
      if quantity <= 0 {
        RemoveFromCart(cropId);
      } else {
        cart := Lists.UpdateKey(cart, ItemKey, cropId, SetQuantity(quantity));
      }
    }

    method ClearCart()
      modifies this`cart
      ensures cart == []
      ensures old(Valid()) ==> Valid()
    {
      cart := [];
    }

    /** `saveBasket(name)`: `newId` is the value of `crypto.randomUUID()`. An empty cart is saved too. */
    method SaveBasket(name: string, newId: string)
      modifies this`savedBaskets
      ensures savedBaskets == old(savedBaskets) + [SavedBasket(newId, name, cart)]
      ensures old(Valid()) ==> Valid()
    {
      savedBaskets := savedBaskets + [SavedBasket(newId, name, cart)];
    }

    method LoadBasket(basketId: string)
      modifies this`cart
      ensures cart == CartAfterLoad(savedBaskets, basketId, old(cart))
      ensures !Lists.HasKey(savedBaskets, BasketKey, basketId) ==> cart == old(cart)
      ensures old(Valid()) ==> Valid()
    {
      if old(Valid()) {
        LoadKeepsUnique(savedBaskets, basketId, cart);
      }
      var basket := Lists.Find(savedBaskets, Lists.KeyIs(BasketKey, basketId));
      if basket.Some? {
        cart := basket.value.items;
      }
    }

    method DeleteBasket(basketId: string)
      modifies this`savedBaskets
      ensures savedBaskets == Lists.RemoveKey(old(savedBaskets), BasketKey, basketId)
      ensures old(Valid()) ==> Valid()
    {
      if old(Valid()) {
        DeleteBasketKeepsUnique(savedBaskets, basketId);
      }
      savedBaskets := Lists.RemoveKey(savedBaskets, BasketKey, basketId);
    }

    /** `addCrop(crop)`: the crop is appended under the fresh id `newId`, whatever id it came with. */
    method AddCrop(crop: Crop, newId: string)
      modifies this`crops
      ensures crops == old(crops) + [crop.(id := newId)]
    {
      crops := crops + [crop.(id := newId)];
    }

    /** `updateCrop(crop)`: every crop with that id becomes `crop`; the list keeps its length and order. */
    method UpdateCrop(crop: Crop)
      modifies this`crops
      ensures crops == Lists.ReplaceKey(old(crops), CropKey, crop)
      ensures |crops| == |old(crops)|
      ensures forall i :: 0 <= i < |crops| ==> crops[i] == if old(crops)[i].id == crop.id then crop else old(crops)[i]
    {
      crops := Lists.ReplaceKey(crops, CropKey, crop);
    }

    method DeleteCrop(cropId: string)
      modifies this`crops
      ensures crops == Lists.RemoveKey(old(crops), CropKey, cropId)
    {
      crops := Lists.RemoveKey(crops, CropKey, cropId);
    }

    method AddFarm(farm: Farm, newId: string)
      modifies this`farms
      ensures farms == old(farms) + [farm.(id := newId)]
    {
      farms := farms + [farm.(id := newId)];
    }

    method UpdateFarm(farm: Farm)
      modifies this`farms
      ensures farms == Lists.ReplaceKey(old(farms), FarmKey, farm)
      ensures |farms| == |old(farms)|
      ensures forall i :: 0 <= i < |farms| ==> farms[i] == if old(farms)[i].id == farm.id then farm else old(farms)[i]
    {
      farms := Lists.ReplaceKey(farms, FarmKey, farm);
    }

    /** `deleteFarm(farmId)`: crops that name the farm keep their `farmId`. */
    method DeleteFarm(farmId: string)
      modifies this`farms
      ensures farms == Lists.RemoveKey(old(farms), FarmKey, farmId)
      ensures crops == old(crops)
    {
      farms := Lists.RemoveKey(farms, FarmKey, farmId);
    }

    method AddDropOffPoint(point: DropOffPoint, newId: string)
      modifies this`dropOffPoints
      ensures dropOffPoints == old(dropOffPoints) + [point.(id := newId)]
    {
      dropOffPoints := dropOffPoints + [point.(id := newId)];
    }

    method UpdateDropOffPoint(point: DropOffPoint)
      modifies this`dropOffPoints
      ensures dropOffPoints == Lists.ReplaceKey(old(dropOffPoints), PointKey, point)
      ensures |dropOffPoints| == |old(dropOffPoints)|
      ensures forall i :: 0 <= i < |dropOffPoints| ==>
        dropOffPoints[i] == if old(dropOffPoints)[i].id == point.id then point else old(dropOffPoints)[i]
    {
      dropOffPoints := Lists.ReplaceKey(dropOffPoints, PointKey, point);
    }

    method DeleteDropOffPoint(pointId: string)
      modifies this`dropOffPoints
      ensures dropOffPoints == Lists.RemoveKey(old(dropOffPoints), PointKey, pointId)
    {
      dropOffPoints := Lists.RemoveKey(dropOffPoints, PointKey, pointId);
    }

    method SetIsAdmin(value: bool)
      modifies this`isAdmin
      ensures isAdmin == value
    {
      isAdmin := value;
    }

    /**
     * `assignFarmToCrop(cropId, farmId)`: only `farmId` changes, and only on crops with that id;
     * nothing checks that a farm with that id exists.
     */
    method AssignFarmToCrop(cropId: string, farmId: string)
      modifies this`crops
      ensures crops == Lists.UpdateKey(old(crops), CropKey, cropId, SetFarm(farmId))
      ensures |crops| == |old(crops)|
      ensures forall i :: 0 <= i < |crops| ==>
        crops[i] == if old(crops)[i].id == cropId then old(crops)[i].(farmId := Some(farmId)) else old(crops)[i]
    {
      crops := Lists.UpdateKey(crops, CropKey, cropId, SetFarm(farmId));
    }
  }
}

=== FILE: text.dfy ===
/**
 * The JavaScript string operations the core relies on, over ASCII: the regular-expression
 * character classes it tests (`\s`, `[A-Z]`, `[a-z]`, `[0-9]`, the punctuation set),
 * `toLowerCase`, `trim` and `includes`, and `length`, which counts UTF-16 code units.
 */
module Text {

  /** `\s` and the characters `trim()` strips, restricted to ASCII. */
  predicate IsWhitespace(c: char) {
    c == ' ' || c == '\t' || c == '\n' || c == '\r' || c == '\U{000B}' || c == '\U{000C}'
  }

  predicate IsUpper(c: char) { 'A' <= c <= 'Z' }

  predicate IsLower(c: char) { 'a' <= c <= 'z' }

  predicate IsDigit(c: char) { '0' <= c <= '9' }

  /** The class `[!@#$%^&*(),.?":{}|<>]` of src/utils/validation.ts. */
  predicate IsSpecial(c: char) {
    c in "!@#$%^&*(),.?\":{}|<>"
  }

  /** The UTF-16 code units of one character: two for a character outside the Basic Multilingual Plane. */
  function CodeUnits(c: char): nat {
    if c as int >= 0x10000 then 2 else 1
  }

  /** `s.length`: the number of UTF-16 code units of `s`. */
  function Utf16Length(s: string): (n: nat)
    ensures |s| <= n <= 2 * |s|
    ensures s == [] <==> n == 0
  {
    if s == [] then 0 else CodeUnits(s[0]) + Utf16Length(s[1..])
  }

  /** Within the Basic Multilingual Plane, `length` counts characters. */
  lemma {:induction false} Utf16LengthInBmp(s: string)
    requires forall i :: 0 <= i < |s| ==> s[i] as int < 0x10000
    ensures Utf16Length(s) == |s|
  {
    if s != [] {
      Utf16LengthInBmp(s[1..]);
    }
  }

  /** The length of a concatenation is the sum of the lengths. */
  lemma {:induction false} Utf16LengthAppend(a: string, b: string)
    ensures Utf16Length(a + b) == Utf16Length(a) + Utf16Length(b)
  {
    if a != [] {
      assert (a + b)[1..] == a[1..] + b;
      Utf16LengthAppend(a[1..], b);
    } else {
      assert a + b == b;
    }
  }

  /** A character outside the Basic Multilingual Plane counts twice. */
  lemma Utf16LengthOfAstral(c: char)
    requires c as int >= 0x10000
    ensures Utf16Length([c]) == 2
  {
    assert [c][1..] == [];
  }

  /** Every character of `s` is whitespace (true of the empty string). */
  predicate IsBlank(s: string) {
    forall i :: 0 <= i < |s| ==> IsWhitespace(s[i])
  }

  /** ASCII `toLowerCase` of one character. */
  function LowerChar(c: char): (d: char)
    ensures IsUpper(c) ==> IsLower(d) && d as int == c as int + 32
    ensures !IsUpper(c) ==> d == c
  {
    if IsUpper(c) then (c as int + 32) as char else c
  }

  /** ASCII `toLowerCase`. */
  function ToLower(s: string): (r: string)
    ensures |r| == |s|
    ensures forall i :: 0 <= i < |s| ==> r[i] == LowerChar(s[i])
  {
    if s == [] then [] else [LowerChar(s[0])] + ToLower(s[1..])
  }

  /** Lower-casing twice is lower-casing once. */
  lemma ToLowerIdempotent(s: string)
    ensures ToLower(ToLower(s)) == ToLower(s)
  {
    var once := ToLower(s);
    assert forall i :: 0 <= i < |s| ==> !IsUpper(once[i]);
  }

  function TrimStart(s: string): (r: string)
    ensures |r| <= |s| && r == s[|s| - |r|..]
    ensures r != [] ==> !IsWhitespace(r[0])
    ensures IsBlank(s[..|s| - |r|])
  {
    if s != [] && IsWhitespace(s[0]) then
      var r := TrimStart(s[1..]);
      assert s[..|s| - |r|] == [s[0]] + s[1..][..|s| - 1 - |r|];
      r
    else s
  }

  function TrimEnd(s: string): (r: string)
    ensures |r| <= |s| && r == s[..|r|]
    ensures r != [] ==> !IsWhitespace(r[|r| - 1])
    ensures IsBlank(s[|r|..])
  {
    if s != [] && IsWhitespace(s[|s| - 1]) then TrimEnd(s[..|s| - 1]) else s
  }

  /** `String.prototype.trim` (`TrimKeepsMiddle` states that it keeps the middle of the string). */
  function Trim(s: string): (r: string)
    ensures |r| <= |s|
    ensures r != [] ==> !IsWhitespace(r[0]) && !IsWhitespace(r[|r| - 1])
  {
    TrimEnd(TrimStart(s))
  }

  /** `trim()` keeps the middle of the string: `s` is a blank prefix, then the result, then a blank suffix. */
  lemma TrimKeepsMiddle(s: string)
    ensures exists a | 0 <= a <= |s| - |Trim(s)| ::
      Trim(s) == s[a..a + |Trim(s)|] && IsBlank(s[..a]) && IsBlank(s[a + |Trim(s)|..])
  {
    BlankEndsAroundMiddle(s, TrimStart(s), Trim(s));
  }

  /**
   * Cutting a blank prefix off `s`, leaving `t`, and then a blank suffix off `t`, leaving `r`,
   * cuts `s` into a blank prefix, `r` and a blank suffix.
   */
  lemma BlankEndsAroundMiddle(s: string, t: string, r: string)
    requires |t| <= |s| && t == s[|s| - |t|..] && IsBlank(s[..|s| - |t|])
    requires |r| <= |t| && r == t[..|r|] && IsBlank(t[|r|..])
    ensures exists a | 0 <= a <= |s| - |r| :: r == s[a..a + |r|] && IsBlank(s[..a]) && IsBlank(s[a + |r|..])
  {
    var a := |s| - |t|;
    assert r == s[a..a + |r|];
    assert s[a + |r|..] == t[|r|..];
  }

  /** `!s.trim()` holds exactly of the blank strings. */
  lemma TrimEmptyIffBlank(s: string)
    ensures Trim(s) == [] <==> IsBlank(s)
  {
    var t := TrimStart(s);
    if Trim(s) == [] {
      assert IsBlank(t[0..]);
      assert s == s[..|s| - |t|] + t;
    }
  }

  /** `needle` occurs in `haystack` starting at index `i`. */
  predicate OccursAt(haystack: string, needle: string, i: int) {
    0 <= i && i + |needle| <= |haystack| && haystack[i..i + |needle|] == needle
  }

  /** `haystack.includes(needle)`. */
  predicate Contains(haystack: string, needle: string) {
    exists i | 0 <= i <= |haystack| - |needle| :: OccursAt(haystack, needle, i)
  }

  /** Every string includes the empty string. */
  lemma ContainsEmpty(haystack: string)
    ensures Contains(haystack, "")
  {
    assert OccursAt(haystack, "", 0);
  }
}

=== FILE: types.dfy ===
/**
 * The records of src/types/index.ts. Prices are whole cents; coordinates are exact reals
 * that no operation inspects; creation dates are not part of this model.
 */
module Types {
  import opened Wrappers

  /** A catalogue entry; `farmId` is a weak reference that nothing checks. */
  datatype Crop = Crop(
    id: string,
    name: string,
    description: string,
    price: int,
    unit: string,
    image: string,
    stock: int,
    category: string,
    farmId: Option<string>)

  datatype Farm = Farm(
    id: string,
    name: string,
    location: string,
    description: string,
    contact: string,
    email: string)

  datatype DropOffPoint = DropOffPoint(
    id: string,
    name: string,
    address: string,
    lat: real,
    lng: real,
    hours: string)

  /** A cart line: the crop as it was when added, and how many. */
  datatype CartItem = CartItem(crop: Crop, quantity: int)

  /** A named snapshot of the cart. */
  datatype SavedBasket = SavedBasket(id: string, name: string, items: seq<CartItem>)

  /** `title` is the source's `label` field (a reserved word in Dafny). */
  datatype Address = Address(
    id: string,
    title: string,
    street: string,
    city: string,
    state: string,
    zipCode: string,
    country: string,
    isDefault: bool)

  datatype User = User(
    id: string,
    email: string,
    name: string,
    phone: string,
    addresses: seq<Address>)

  /** `'home' | 'collection'`. */
  datatype Delivery = Home | Collection

  function CropKey(c: Crop): string { c.id }

  function FarmKey(f: Farm): string { f.id }

  function PointKey(p: DropOffPoint): string { p.id }

  function ItemKey(item: CartItem): string { item.crop.id }

  function BasketKey(b: SavedBasket): string { b.id }

  function AddressKey(a: Address): string { a.id }
}

=== FILE: validation.dfy ===
/**
 * Field validation (src/utils/validation.ts). Each validator pushes its messages onto a local
 * list, returning early only for the "required" case; the specification functions
 * `EmailErrors`, `PasswordErrors`, `NameErrors` and `PhoneErrors` give the list each one returns,
 * and the lemmas below say what those lists mean.
 */
module Validation {
  import opened Text
  import Lists

  /** The fixed messages the validators report; `MessageText` gives each one's wording. */
  datatype ErrorMessage =
    | EmailRequired | EmailInvalid | EmailTooLong
    | PasswordRequired | PasswordTooShort | PasswordNoUpper | PasswordNoLower
    | PasswordNoDigit | PasswordNoSpecial | PasswordTooLong
    | NameRequired | NameTooShort | NameTooLong | NameBadChars
    | PhoneRequired | PhoneInvalid | PhoneDigits

  function MessageText(m: ErrorMessage): string {
    match m
    case EmailRequired => "Email is required"
    case EmailInvalid => "Please enter a valid email address"
    case EmailTooLong => "Email is too long"
    case PasswordRequired => "Password is required"
    case PasswordTooShort => "Password must be at least 8 characters long"
    case PasswordNoUpper => "Password must contain at least one uppercase letter"
    case PasswordNoLower => "Password must contain at least one lowercase letter"
    case PasswordNoDigit => "Password must contain at least one number"
    case PasswordNoSpecial => "Password must contain at least one special character"
    case PasswordTooLong => "Password is too long (maximum 128 characters)"
    case NameRequired => "Name is required"
    case NameTooShort => "Name must be at least 2 characters long"
    case NameTooLong => "Name is too long"
    case NameBadChars => "Name can only contain letters, spaces, hyphens, and apostrophes"
    case PhoneRequired => "Phone number is required"
    case PhoneInvalid => "Please enter a valid phone number"
    case PhoneDigits => "Phone number must be between 10 and 15 digits"
  }

  datatype ValidationResult = ValidationResult(isValid: bool, errors: seq<ErrorMessage>)

  /** The message list a failing check contributes: `[message]` when it fails, nothing otherwise. */
  function Opt(fails: bool, message: ErrorMessage): seq<ErrorMessage> {
    if fails then [message] else []
  }

  predicate HasUpper(s: string) { exists i | 0 <= i < |s| :: IsUpper(s[i]) }

  predicate HasLower(s: string) { exists i | 0 <= i < |s| :: IsLower(s[i]) }

  predicate HasDigit(s: string) { exists i | 0 <= i < |s| :: IsDigit(s[i]) }

  predicate HasSpecial(s: string) { exists i | 0 <= i < |s| :: IsSpecial(s[i]) }

  // ---------------------------------------------------------------- email

  /** A character of the class `[^\s@]`. */
  predicate EmailChar(c: char) { !IsWhitespace(c) && c != '@' }

  predicate AllEmailChars(s: string) { forall i | 0 <= i < |s| :: EmailChar(s[i]) }

  /** `s` reads as `a@b.c` with `a`, `b`, `c` non-empty runs of `[^\s@]`, the '@' at `i` and the '.' at `j`. */
  predicate EmailSplit(s: string, i: int, j: int) {
    && 0 < i && i + 1 < j && j + 1 < |s|
    && s[i] == '@' && s[j] == '.'
    && AllEmailChars(s[..i]) && AllEmailChars(s[i + 1..j]) && AllEmailChars(s[j + 1..])
  }

  /** `/^[^\s@]+@[^\s@]+\.[^\s@]+$/.test(s)`. */
  predicate MatchesEmailPattern(s: string) {
    exists i, j | 0 < i < |s| && 0 < j < |s| :: EmailSplit(s, i, j)
  }

  lemma AllEmailCharsSlice(s: string, a: int, b: int)
    requires 0 <= a <= b <= |s|
    requires forall m | a <= m < b :: EmailChar(s[m])
    ensures AllEmailChars(s[a..b])
  {
    forall m | 0 <= m < b - a ensures EmailChar(s[a..b][m]) {
      assert s[a..b][m] == s[a + m];
    }
  }

  /** The only '@' of `s` is at index `i`. */
  predicate SoleAtSign(s: string, i: int) {
    0 <= i < |s| && s[i] == '@' && forall k | 0 <= k < |s| && k != i :: s[k] != '@'
  }

  /** `d` has a '.' that is neither its first nor its last character. */
  predicate HasInnerDot(d: string) { exists k | 0 < k < |d| - 1 :: d[k] == '.' }

  /** A split of the email pattern has the shape: no whitespace, the sole '@' at `i`, and an inner '.' after it. */
  lemma SplitHasShape(s: string, i: int, j: int)
    requires EmailSplit(s, i, j)
    ensures forall k | 0 <= k < |s| :: !IsWhitespace(s[k])
    ensures SoleAtSign(s, i) && HasInnerDot(s[i + 1..])
  {
    forall k | 0 <= k < |s| && k != i ensures EmailChar(s[k]) {
      if k < i {
        assert s[k] == s[..i][k];
      } else if k < j {
        assert s[k] == s[i + 1..j][k - i - 1];
      } else if j < k {
        assert s[k] == s[j + 1..][k - j - 1];
      }
    }
    assert s[i + 1..][j - i - 1] == '.';
  }

  /** The shape gives a split of the email pattern at the '@' and at an inner '.' after it. */
  lemma ShapeHasSplit(s: string, i: int) returns (j: int)
    requires forall k | 0 <= k < |s| :: !IsWhitespace(s[k])
    requires 0 < i < |s| && SoleAtSign(s, i) && HasInnerDot(s[i + 1..])
    ensures 0 < j < |s| && EmailSplit(s, i, j)
  {
    var d := s[i + 1..];
    var k :| 0 < k < |d| - 1 && d[k] == '.';
    j := i + 1 + k;
    assert s[j] == d[k];
    assert forall m | 0 <= m < |s| && m != i :: EmailChar(s[m]);
    AllEmailCharsSlice(s, 0, i);
    AllEmailCharsSlice(s, i + 1, j);
    AllEmailCharsSlice(s, j + 1, |s|);
    assert s[..i] == s[0..i] && s[j + 1..] == s[j + 1..|s|];
  }

  /**
   * The email pattern, stated as a shape: no whitespace, exactly one '@' with something
   * before it, and a '.' strictly inside the part after it.
   */
  lemma EmailPatternShape(s: string)
    ensures MatchesEmailPattern(s) <==>
      && (forall k | 0 <= k < |s| :: !IsWhitespace(s[k]))
      && exists i | 0 < i < |s| :: SoleAtSign(s, i) && HasInnerDot(s[i + 1..])
  {
    if MatchesEmailPattern(s) {
      var i, j :| 0 < i < |s| && 0 < j < |s| && EmailSplit(s, i, j);
      SplitHasShape(s, i, j);
    }
    if && (forall k | 0 <= k < |s| :: !IsWhitespace(s[k]))
       && exists i | 0 < i < |s| :: SoleAtSign(s, i) && HasInnerDot(s[i + 1..])
    {
      var i :| 0 < i < |s| && SoleAtSign(s, i) && HasInnerDot(s[i + 1..]);
      var j := ShapeHasSplit(s, i);
    }
  }

  /** The list `validateEmail` returns. */
  function EmailErrors(email: string): seq<ErrorMessage> {
    if Trim(email) == [] then [EmailRequired]
    else Opt(!MatchesEmailPattern(email), EmailInvalid) + Opt(Utf16Length(email) > 254, EmailTooLong)
  }

  method ValidateEmail(email: string) returns (r: ValidationResult)
    ensures r.errors == EmailErrors(email)
    ensures r.isValid <==> r.errors == []
  {
    var errors: seq<ErrorMessage> := [];
    if Trim(email) == [] {
      errors := errors + [EmailRequired];
      return ValidationResult(false, errors);
    }
    if !MatchesEmailPattern(email) {
      errors := errors + [EmailInvalid];
    }
    assert errors == Opt(!MatchesEmailPattern(email), EmailInvalid);
    ghost var upTo1 := errors;
    if Utf16Length(email) > 254 {
      errors := errors + [EmailTooLong];
    }
    assert errors == upTo1 + Opt(Utf16Length(email) > 254, EmailTooLong);
    return ValidationResult(|errors| == 0, errors);
  }

  /** A blank email gets the "required" message and nothing else; a non-blank one never gets it. */
  lemma EmailRequiredIffBlank(email: string)
    ensures IsBlank(email) ==> EmailErrors(email) == [EmailRequired]
    ensures EmailRequired in EmailErrors(email) <==> IsBlank(email)
  {
    TrimEmptyIffBlank(email);
    if !IsBlank(email) {
      var invalid, long := Opt(!MatchesEmailPattern(email), EmailInvalid), Opt(Utf16Length(email) > 254, EmailTooLong);
      assert EmailErrors(email) == invalid + long;
      assert EmailRequired !in invalid && EmailRequired !in long;
    }
  }

  /** An email is accepted exactly when it is non-blank, matches the pattern and has a length (in UTF-16 code units) of at most 254. */
  lemma EmailAcceptedIff(email: string)
    ensures EmailErrors(email) == [] <==> !IsBlank(email) && MatchesEmailPattern(email) && Utf16Length(email) <= 254
  {
    TrimEmptyIffBlank(email);
  }

  // ---------------------------------------------------------------- password

  /** The six rules `validatePassword` checks once the password is non-empty, in the order it checks them. */
  datatype PasswordRule = MinLength | Uppercase | Lowercase | Digit | Special | MaxLength

  const PasswordRules: seq<PasswordRule> := [MinLength, Uppercase, Lowercase, Digit, Special, MaxLength]

  predicate Violates(p: string, rule: PasswordRule) {
    match rule
    case MinLength => Utf16Length(p) < 8
    case Uppercase => !HasUpper(p)
    case Lowercase => !HasLower(p)
    case Digit => !HasDigit(p)
    case Special => !HasSpecial(p)
    case MaxLength => Utf16Length(p) > 128
  }

  function RuleMessage(rule: PasswordRule): ErrorMessage {
    match rule
    case MinLength => PasswordTooShort
    case Uppercase => PasswordNoUpper
    case Lowercase => PasswordNoLower
    case Digit => PasswordNoDigit
    case Special => PasswordNoSpecial
    case MaxLength => PasswordTooLong
  }

  /** The list `validatePassword` returns; only the empty string is "required" (no trimming). */
  function PasswordErrors(p: string): seq<ErrorMessage> {
    if p == [] then [PasswordRequired]
    else
      Opt(Utf16Length(p) < 8, PasswordTooShort) + Opt(!HasUpper(p), PasswordNoUpper) + Opt(!HasLower(p), PasswordNoLower)
      + Opt(!HasDigit(p), PasswordNoDigit) + Opt(!HasSpecial(p), PasswordNoSpecial) + Opt(Utf16Length(p) > 128, PasswordTooLong)
  }

  method ValidatePassword(password: string) returns (r: ValidationResult)
    ensures r.errors == PasswordErrors(password)
    ensures r.isValid <==> r.errors == []
  {
    var errors: seq<ErrorMessage> := [];
    if password == [] {
      errors := errors + [PasswordRequired];
      return ValidationResult(false, errors);
    }
    if Utf16Length(password) < 8 {
      errors := errors + [PasswordTooShort];
    }
    assert errors == Opt(Utf16Length(password) < 8, PasswordTooShort);
    if !HasUpper(password) {
      errors := errors + [PasswordNoUpper];
    }
    assert errors == Opt(Utf16Length(password) < 8, PasswordTooShort) + Opt(!HasUpper(password), PasswordNoUpper);
    ghost var upTo2 := errors;
    if !HasLower(password) {
      errors := errors + [PasswordNoLower];
    }
    assert errors == upTo2 + Opt(!HasLower(password), PasswordNoLower);
    ghost var upTo3 := errors;
    if !HasDigit(password) {
      errors := errors + [PasswordNoDigit];
    }
    assert errors == upTo3 + Opt(!HasDigit(password), PasswordNoDigit);
    ghost var upTo4 := errors;
    if !HasSpecial(password) {
      errors := errors + [PasswordNoSpecial];
    }
    assert errors == upTo4 + Opt(!HasSpecial(password), PasswordNoSpecial);
    ghost var upTo5 := errors;
    if Utf16Length(password) > 128 {
      errors := errors + [PasswordTooLong];
    }
    assert errors == upTo5 + Opt(Utf16Length(password) > 128, PasswordTooLong);
    return ValidationResult(|errors| == 0, errors);
  }

  /** The rule as a one-element list when `p` violates it, empty otherwise. */
  function Violated(p: string, rule: PasswordRule): seq<PasswordRule> {
    if Violates(p, rule) then [rule] else []
  }

  /** The rules `p` violates, as a test usable by `Filter`. */
  function ViolatedBy(p: string): PasswordRule -> bool {
    rule => Violates(p, rule)
  }

  /** Filtering the rule list keeps each violated rule in place. */
  lemma {:induction false} FilterPasswordRules(p: string)
    ensures Lists.Filter(PasswordRules, ViolatedBy(p)) ==
      Violated(p, MinLength) + (Violated(p, Uppercase) + (Violated(p, Lowercase) +
      (Violated(p, Digit) + (Violated(p, Special) + Violated(p, MaxLength)))))
  {
    var keep := ViolatedBy(p);
    var t5 := [MaxLength];
    var t4 := [Special] + t5;
    var t3 := [Digit] + t4;
    var t2 := [Lowercase] + t3;
    var t1 := [Uppercase] + t2;
    assert PasswordRules == [MinLength] + t1;
    Lists.FilterCons(MaxLength, [], keep);
    assert [MaxLength] + [] == t5;
    Lists.FilterCons(Special, t5, keep);
    Lists.FilterCons(Digit, t4, keep);
    Lists.FilterCons(Lowercase, t3, keep);
    Lists.FilterCons(Uppercase, t2, keep);
    Lists.FilterCons(MinLength, t1, keep);
  }

  /** Each rule contributes its message exactly when it is violated. */
  lemma MessagesOfViolated(p: string)
    ensures Lists.Map(Violated(p, MinLength), RuleMessage) == Opt(Utf16Length(p) < 8, PasswordTooShort)
    ensures Lists.Map(Violated(p, Uppercase), RuleMessage) == Opt(!HasUpper(p), PasswordNoUpper)
    ensures Lists.Map(Violated(p, Lowercase), RuleMessage) == Opt(!HasLower(p), PasswordNoLower)
    ensures Lists.Map(Violated(p, Digit), RuleMessage) == Opt(!HasDigit(p), PasswordNoDigit)
    ensures Lists.Map(Violated(p, Special), RuleMessage) == Opt(!HasSpecial(p), PasswordNoSpecial)
    ensures Lists.Map(Violated(p, MaxLength), RuleMessage) == Opt(Utf16Length(p) > 128, PasswordTooLong)
  {
  }

  /**
   * A non-empty password gets one message per violated rule, in the fixed rule order:
   * the messages of the rules it violates, filtered from the rule list.
   */
  lemma {:induction false} PasswordErrorsFollowRuleOrder(p: string)
    requires p != []
    ensures PasswordErrors(p) == Lists.Map(Lists.Filter(PasswordRules, ViolatedBy(p)), RuleMessage)
  {
    var v := Violated(p, MinLength) + (Violated(p, Uppercase) + (Violated(p, Lowercase) +
      (Violated(p, Digit) + (Violated(p, Special) + Violated(p, MaxLength)))));
    assert Lists.Filter(PasswordRules, ViolatedBy(p)) == v by {
      FilterPasswordRules(p);
    }
    assert Lists.Map(v, RuleMessage) == PasswordErrors(p) by {
      Lists.MapRegroup6(Violated(p, MinLength), Violated(p, Uppercase), Violated(p, Lowercase),
        Violated(p, Digit), Violated(p, Special), Violated(p, MaxLength), RuleMessage);
      MessagesOfViolated(p);
    }
  }

  /** The "required" message appears exactly for the empty string, so a whitespace-only password gets rule messages. */
  lemma PasswordRequiredIffEmpty(p: string)
    ensures PasswordRequired in PasswordErrors(p) <==> p == []
    ensures p != [] && IsBlank(p) ==> PasswordTooShort in PasswordErrors(p) || PasswordNoUpper in PasswordErrors(p)
  {
    if p != [] {
      var o1, o2, o3 := Opt(Utf16Length(p) < 8, PasswordTooShort), Opt(!HasUpper(p), PasswordNoUpper), Opt(!HasLower(p), PasswordNoLower);
      var o4, o5, o6 := Opt(!HasDigit(p), PasswordNoDigit), Opt(!HasSpecial(p), PasswordNoSpecial), Opt(Utf16Length(p) > 128, PasswordTooLong);
      assert PasswordErrors(p) == o1 + o2 + o3 + o4 + o5 + o6;
      assert PasswordRequired !in o1 && PasswordRequired !in o2 && PasswordRequired !in o3;
      assert PasswordRequired !in o4 && PasswordRequired !in o5 && PasswordRequired !in o6;
      if IsBlank(p) {
        assert !HasUpper(p);
      }
    }
  }

  /** "Too short" and "too long" exclude each other, so a password gets at most five messages. */
  lemma PasswordAtMostFiveErrors(p: string)
    ensures |PasswordErrors(p)| <= 5
    ensures !(PasswordTooShort in PasswordErrors(p) && PasswordTooLong in PasswordErrors(p))
  {
    if p != [] {
      var o1, o2, o3 := Opt(Utf16Length(p) < 8, PasswordTooShort), Opt(!HasUpper(p), PasswordNoUpper), Opt(!HasLower(p), PasswordNoLower);
      var o4, o5, o6 := Opt(!HasDigit(p), PasswordNoDigit), Opt(!HasSpecial(p), PasswordNoSpecial), Opt(Utf16Length(p) > 128, PasswordTooLong);
      assert PasswordErrors(p) == o1 + o2 + o3 + o4 + o5 + o6;
      assert PasswordTooShort !in o2 + o3 + o4 + o5 + o6 && PasswordTooLong !in o1 + o2 + o3 + o4 + o5;
    }
  }

  /**
   * `length` counts UTF-16 code units: a password of seven characters, one of them outside the
   * Basic Multilingual Plane, has length 8 and is accepted.
   */
  lemma AstralCharacterCountsTwice(p: string)
    requires p == "Aa1!bc\U{1F600}"
    ensures |p| == 7
    ensures PasswordErrors(p) == []
  {
    assert p == "Aa1!bc" + ['\U{1F600}'];
    assert Utf16Length(p) == 8 by {
      Utf16LengthInBmp("Aa1!bc");
      Utf16LengthOfAstral('\U{1F600}');
      Utf16LengthAppend("Aa1!bc", ['\U{1F600}']);
    }
    assert IsUpper(p[0]) && IsLower(p[1]) && IsDigit(p[2]) && IsSpecial(p[3]);
  }

  /** A password is accepted exactly when it has a length of 8 to 128 and every required class. */
  lemma PasswordAcceptedIff(p: string)
    ensures PasswordErrors(p) == [] <==>
      8 <= Utf16Length(p) <= 128 && HasUpper(p) && HasLower(p) && HasDigit(p) && HasSpecial(p)
  {
  }

  // ---------------------------------------------------------------- name

  predicate NameChar(c: char) { IsUpper(c) || IsLower(c) || IsWhitespace(c) || c == '\'' || c == '-' }

  /** `/^[a-zA-Z\s'-]+$/.test(s)`. */
  predicate MatchesNamePattern(s: string) { |s| > 0 && forall i | 0 <= i < |s| :: NameChar(s[i]) }

  /** The list `validateName` returns: the length floor is on the trimmed name, the ceiling on the raw one. */
  function NameErrors(name: string): seq<ErrorMessage> {
    if Trim(name) == [] then [NameRequired]
    else Opt(Utf16Length(Trim(name)) < 2, NameTooShort) + Opt(Utf16Length(name) > 100, NameTooLong) + Opt(!MatchesNamePattern(name), NameBadChars)
  }

  method ValidateName(name: string) returns (r: ValidationResult)
    ensures r.errors == NameErrors(name)
    ensures r.isValid <==> r.errors == []
  {
    var errors: seq<ErrorMessage> := [];
    if Trim(name) == [] {
      errors := errors + [NameRequired];
      return ValidationResult(false, errors);
    }
    if Utf16Length(Trim(name)) < 2 {
      errors := errors + [NameTooShort];
    }
    assert errors == Opt(Utf16Length(Trim(name)) < 2, NameTooShort);
    ghost var upTo1 := errors;
    if Utf16Length(name) > 100 {
      errors := errors + [NameTooLong];
    }
    assert errors == upTo1 + Opt(Utf16Length(name) > 100, NameTooLong);
    ghost var upTo2 := errors;
    if !MatchesNamePattern(name) {
      errors := errors + [NameBadChars];
    }
    assert errors == upTo2 + Opt(!MatchesNamePattern(name), NameBadChars);
    return ValidationResult(|errors| == 0, errors);
  }

  lemma NameRequiredIffBlank(name: string)
    ensures IsBlank(name) ==> NameErrors(name) == [NameRequired]
    ensures NameRequired in NameErrors(name) <==> IsBlank(name)
  {
    TrimEmptyIffBlank(name);
    if !IsBlank(name) {
      var short, long, chars := Opt(Utf16Length(Trim(name)) < 2, NameTooShort), Opt(Utf16Length(name) > 100, NameTooLong),
        Opt(!MatchesNamePattern(name), NameBadChars);
      assert NameErrors(name) == short + long + chars;
      assert NameRequired !in short && NameRequired !in long && NameRequired !in chars;
    }
  }

  /** A name is accepted exactly when its trimmed form has a length of at least 2, it has one of at most 100, and all its characters are allowed. */
  lemma NameAcceptedIff(name: string)
    ensures NameErrors(name) == [] <==>
      Utf16Length(Trim(name)) >= 2 && Utf16Length(name) <= 100 && forall i | 0 <= i < |name| :: NameChar(name[i])
  {
    var trimmed := Trim(name);
    if trimmed != [] {
      assert |name| > 0;
      var short, long, chars := Opt(Utf16Length(trimmed) < 2, NameTooShort), Opt(Utf16Length(name) > 100, NameTooLong),
        Opt(!MatchesNamePattern(name), NameBadChars);
      assert NameErrors(name) == short + long + chars;
      assert NameErrors(name) == [] <==> short == [] && long == [] && chars == [];
    }
  }

  // ---------------------------------------------------------------- phone

  predicate PhoneChar(c: char) { IsDigit(c) || IsWhitespace(c) || c == '-' || c == '+' || c == '(' || c == ')' }

  /** `/^[\d\s\-\+\(\)]+$/.test(s)`. */
  predicate MatchesPhonePattern(s: string) { |s| > 0 && forall i | 0 <= i < |s| :: PhoneChar(s[i]) }

  /** `s.replace(/\D/g, '')`. */
  function DigitsOnly(s: string): (r: string)
    ensures |r| <= |s|
    ensures forall i | 0 <= i < |r| :: IsDigit(r[i])
    ensures IsBlank(s) ==> r == []
  {
    if s == [] then [] else (if IsDigit(s[0]) then [s[0]] else []) + DigitsOnly(s[1..])
  }

  function PhoneErrors(phone: string): seq<ErrorMessage> {
    if Trim(phone) == [] then [PhoneRequired]
    else
      Opt(!MatchesPhonePattern(phone), PhoneInvalid)
      + Opt(|DigitsOnly(phone)| < 10 || |DigitsOnly(phone)| > 15, PhoneDigits)
  }

  method ValidatePhone(phone: string) returns (r: ValidationResult)
    ensures r.errors == PhoneErrors(phone)
    ensures r.isValid <==> r.errors == []
  {
    var errors: seq<ErrorMessage> := [];
    if Trim(phone) == [] {
      errors := errors + [PhoneRequired];
      return ValidationResult(false, errors);
    }
    if !MatchesPhonePattern(phone) {
      errors := errors + [PhoneInvalid];
    }
    assert errors == Opt(!MatchesPhonePattern(phone), PhoneInvalid);
    ghost var upTo1 := errors;
    var digitsOnly := DigitsOnly(phone);
    if |digitsOnly| < 10 || |digitsOnly| > 15 {
      errors := errors + [PhoneDigits];
    }
    assert errors == upTo1 + Opt(|digitsOnly| < 10 || |digitsOnly| > 15, PhoneDigits);
    return ValidationResult(|errors| == 0, errors);
  }

  lemma PhoneRequiredIffBlank(phone: string)
    ensures IsBlank(phone) ==> PhoneErrors(phone) == [PhoneRequired]
    ensures PhoneRequired in PhoneErrors(phone) <==> IsBlank(phone)
  {
    TrimEmptyIffBlank(phone);
    if !IsBlank(phone) {
      var digits := |DigitsOnly(phone)|;
      var invalid, count := Opt(!MatchesPhonePattern(phone), PhoneInvalid), Opt(digits < 10 || digits > 15, PhoneDigits);
      assert PhoneErrors(phone) == invalid + count;
      assert PhoneRequired !in invalid && PhoneRequired !in count;
    }
  }

  /** A phone number is accepted exactly when every character is allowed and it holds 10 to 15 digits. */
  lemma PhoneAcceptedIff(phone: string)
    ensures PhoneErrors(phone) == [] <==>
      && (forall i | 0 <= i < |phone| :: PhoneChar(phone[i]))
      && 10 <= |DigitsOnly(phone)| <= 15
  {
    TrimEmptyIffBlank(phone);
    if PhoneErrors(phone) == [] {
      assert phone != [];
    }
  }

  // ---------------------------------------------------------------- strength

  /** The label (`'Weak' | 'Medium' | 'Strong'`) and colour (`'red' | 'yellow' | 'green'`) of a score. */
  datatype Level = Weak | Medium | Strong
  datatype Color = Red | Yellow | Green

  datatype Strength = Strength(strength: nat, level: Level, color: Color)

  function Point(met: bool): nat { if met then 1 else 0 }

  /** One point for each of the six criteria `getPasswordStrength` checks. */
  function StrengthScore(p: string): nat {
    Point(Utf16Length(p) >= 8) + Point(Utf16Length(p) >= 12) + Point(HasUpper(p)) + Point(HasLower(p))
    + Point(HasDigit(p)) + Point(HasSpecial(p))
  }

  /** The label and colour for a score. */
  function Rating(score: nat): Strength {
    if score <= 2 then Strength(score, Weak, Red)
    else if score <= 4 then Strength(score, Medium, Yellow)
    else Strength(score, Strong, Green)
  }

  /** What `getPasswordStrength` returns: one point per criterion met, and the label of that score. */
  function PasswordStrength(p: string): (r: Strength)
    ensures r.strength <= 6
    ensures r.level == Weak <==> r.strength <= 2
    ensures r.level == Medium <==> 3 <= r.strength <= 4
    ensures r.level == Strong <==> 5 <= r.strength
  {
    Rating(StrengthScore(p))
  }

  method GetPasswordStrength(password: string) returns (r: Strength)
    ensures r == PasswordStrength(password)
  {
    var strength: nat := 0;
    if Utf16Length(password) >= 8 { strength := strength + 1; }
    if Utf16Length(password) >= 12 { strength := strength + 1; }
    if HasUpper(password) { strength := strength + 1; }
    if HasLower(password) { strength := strength + 1; }
    if HasDigit(password) { strength := strength + 1; }
    if HasSpecial(password) { strength := strength + 1; }
    if strength <= 2 { return Strength(strength, Weak, Red); }
    if strength <= 4 { return Strength(strength, Medium, Yellow); }
    return Strength(strength, Strong, Green);
  }

  /** Every password `validatePassword` accepts scores at least 5 and so is rated "Strong". */
  lemma AcceptedPasswordIsStrong(p: string)
    requires PasswordErrors(p) == []
    ensures PasswordStrength(p).strength >= 5
    ensures PasswordStrength(p).level == Strong
  {
  }

  /**
   * Missing a required class does not keep a password from "Strong": twelve characters with
   * upper case, lower case and a digit but no special character score 5.
   */
  lemma StrongWithoutSpecialCharacter(p: string)
    requires p == "Abcdefghijk1"
    ensures PasswordNoSpecial in PasswordErrors(p)
    ensures PasswordStrength(p).level == Strong
  {
    assert Utf16Length(p) == 12 by {
      assert forall i :: 0 <= i < |p| ==> p[i] as int < 0x10000;
      Utf16LengthInBmp(p);
    }
    assert IsUpper(p[0]) && IsLower(p[1]) && IsDigit(p[11]);
    assert !HasSpecial(p);
  }
}

=== FILE: wrappers.dfy ===
/** The optional value the source writes as `T | undefined` or `T | null`. */
module Wrappers {

  datatype Option<+T> = None | Some(value: T) {

    /** The value, or `default` when there is none (JavaScript's `x || default` on a present value). */
    function GetOr(default: T): T {
      match this
      case Some(v) => v
      case None => default
    }
  }
}
